=== FILE: README.md ===
# Firebase adapter and serializer for Ember Data, modelled in Dafny

This project models `src/data.js` of emberfire: `DS.FirebaseSerializer`, which
rewrites hasMany relationships between Firebase's `{ id: true }` maps and the
store's id lists and extracts embedded records, and `DS.FirebaseAdapter`, which
reconciles Firebase events with the store through a batching queue and writes
records and their hasMany relationships back to Firebase.

Everything is a pure function over immutable values:

- `Json` — payloads. An object is an ordered association list, because the
  order of its keys becomes the order of related ids. `StampId` is
  `_assignIdToPayload`.
- `Schema` — a model type's relationships, in `eachRelationship` order: key,
  kind, related type, and whether it is embedded.
- `Serializer` — `normalize`, `extractSingle` and `extractArray`. Each returns
  a `Result`, since the source throws. `ExpectedField` describes, key by key,
  what `normalize` produces.
- `Paths` — `_getRef` and `_getRelationshipRef`, as sequences of child names.
  `pathForType` (camelize, then pluralize) is a function parameter of `Env`.
- `BatchQueue` — `_enqueue` and `_queueFlush`. Asking for a flush is a boolean
  result, not a timer. What a queued callback does to the queue while it runs
  is an `Effect` parameter: the callbacks it enqueues, and whether it throws.
- `Fetch` — `find` as a state record with the `resolved` flag, driven by
  `value` and cancel events. Also `findAll`, the per-type listener registry
  (`_findAllMapForType`) and the child listeners.
- `LocalStore` — the store as the adapter sees it. For each (type, id) it
  holds `isDirty` and the record's serialized fields.
- `Writes` — the per-related-id write decision and its promise, the
  `allSettled` aggregation, and `updateRecord`/`createRecord`/`deleteRecord`.
  Firebase writes are recorded as `WriteCmd` values. A `Transport` function
  gives the error each write's completion callback receives; every write is
  taken to be acknowledged, so its callback always runs.

Promises are `Settlement` values (`Pending`, `Fulfilled`, `Rejected`). Queued
callbacks name their promise by a number.

## Behaviour kept as written

Where the code behaves surprisingly, the model follows it:

- `find` and `findAll` reject a missing record with no reason (`reject()` with
  no arguments), not with a typed not-found error.
- The cancel callback of `find` rejects only before resolution. It does not
  set `resolved`.
- When no write is needed for a related id, its promise never settles: the test
  at src/data.js:365 has no else branch. `updateRecord` then never settles
  either (`UpdateRecordHangsIffSkippedId`).
- An embedded related id that the store does not hold is rejected with a
  TypeError. `valueToSave` calls `serialize` on `false` before the test.
- A completion callback tests its error with `if (error)`: a falsy value
  (`null`, `false`, `0`, `""`) counts as success.
- `updateRecord` waits on `allSettled`. It merges the record's fields and
  resolves even when a relationship save was rejected.
- Non-embedded relationship ids are written with `set(true)`, a full replace at
  `parent/key/id`. Embedded ones are merged with `update`.
- The `child_removed` listener calls `this._enqueue` with `this` undefined
  (strict mode). That throws whenever the store holds the record, so removals
  never reach the store.
- `findAll` on an empty collection rejects and registers no listeners.
- A non-embedded hasMany field holding `null` makes `normalize` throw, because
  `Ember.keys(null)` throws.
- `Ember.isArray` also accepts any object with a `length` key. A hasMany map
  that lists a related id `length` therefore makes `normalize` throw.
- Callbacks enqueued during a flush are never run. `forEach` does not visit
  them, and `length = 0` then wipes them. A callback that throws ends the flush
  before the queue is cleared. After that, no enqueue ever schedules a flush
  again.

## Model

| member | source | states |
|---|---|---|
| `Json.Keys` | src/data.js:27 | `Ember.keys` of an object lists every key once per entry, in enumeration order |
| `Json.SetField` | src/data.js:27 | a property write makes the key read back as the new value and leaves every other key's value alone |
| `Json.SetFieldKeys` | src/data.js:52-56 | writing an existing key keeps the key order; a new key is appended last |
| `Json.RemoveField` | src/data.js:306 | `delete` makes the key read as `undefined` and leaves every other key's value alone |
| `LocalStore.Related` | src/data.js:358 | the related record is found exactly when the store holds that type and id, and is the one it holds |
| `Json.StampId` | src/data.js:129-133 | a non-null object gets `id` equal to the snapshot key and keeps every other field; any other value is unchanged |
| `Serializer.NormalizeField` | src/data.js:24-33 | one relationship's rewrite keeps the payload's key order and touches no other key |
| `Serializer.NormalizeFields` | src/data.js:24-33 | the relationship pass over an object keeps its keys in order |
| `Serializer.Normalize` | src/data.js:22-35 | an object payload is the relationship pass over its fields and keeps its keys in order; a null payload throws iff a hasMany relationship is declared; any other value passes unchanged |
| `Serializer.NormalizeObject` | src/data.js:22-35 | on an object payload, normalize succeeds iff every field is acceptable, and then every field is as the reference `ExpectedField` describes |
| `Serializer.NormalizeFieldsSpec` | src/data.js:22-35 | normalize succeeds iff no hasMany field is an array or array-like (`Ember.isArray`) and no non-embedded one is null; on success each non-embedded hasMany object becomes its ordered key list and every other field, embedded maps included, is unchanged |
| `Serializer.ArrayHasManyThrows` | src/data.js:29-31 | a hasMany field holding an array throws, embedded or not |
| `Serializer.EmbeddedEntries` | src/data.js:49-56 | an object's entries are enumerated as they are; an array's elements come in index order, each keyed by its decimal index; only objects and arrays survive `Ember.keys` |
| `Json.IndexKeyValue` | src/data.js:49 | the key `for (k in array)` yields for an element spells that element's index in decimal |
| `Json.IndexKeyInjective` | src/data.js:49 | distinct array indices yield distinct keys, so no two elements of an embedded array share an `id` |
| `Serializer.ExtractEmbedded` | src/data.js:43-59 | the embedded pass keeps the payload's key order |
| `Serializer.ExtractEmbeddedComplete` | src/data.js:43-59 | for any fields, the embedded pass succeeds iff every expanded field is an object or an array; its pushes are exactly the reference list (one per expanded relationship, in declaration order, of the key-stamped entries, cut at the first field that cannot be enumerated); on success every field is the reference `ExtractedField` |
| `Serializer.ExpectedPushesContain` | src/data.js:44-57 | when nothing throws, every expanded relationship's entries are pushed |
| `Serializer.ExtractEmbeddedSpec` | src/data.js:43-59 | the pass succeeds iff every expanded field can be enumerated; then an embedded map becomes its key list and its entries, stamped with their keys in key order, are pushed as records of the related type |
| `Serializer.ExtractSingle` | src/data.js:40-61 | when normalize throws nothing is pushed and the same error results; a null payload pushes nothing and throws iff a relationship is declared; any other non-object passes unchanged; a successful object extraction keeps the key order |
| `Serializer.ExtractSingleComplete` | src/data.js:40-61 | for any object payload, extraction succeeds iff normalize accepts every field and every expanded field can be enumerated; it pushes the reference list once normalize has succeeded and nothing otherwise; on success every field is the reference `SingleField` |
| `Serializer.ExtractSingleEmbedded` | src/data.js:40-61 | end to end: extraction succeeds iff every field is acceptable and enumerable; then normalize has left an embedded map alone, and extraction replaces it by its keys and pushes its stamped entries |
| `Serializer.StampedRecordsCarryTheirKeys` | src/data.js:49-55 | every object-valued embedded entry is pushed with `id` equal to its map key |
| `Serializer.ExtractArray` | src/data.js:68-72 | succeeds iff every item extracts; the result has the input's length and order, item i being `extractSingle` of input i |
| `Serializer.ExtractArrayPushes` | src/data.js:41-72 | when no item throws, the pushes are every item's `extractSingle` pushes, concatenated in item order |
| `Serializer.ExtractArrayThrowPushes` | src/data.js:41-72 | when an item throws, the pushes are those of the items up to and including the first that throws, and its error is the result |
| `Paths.Ref` | src/data.js:415-424 | the root, then the type's collection name, then the id only when it is truthy |
| `Paths.RelationshipRef` | src/data.js:429-431 | the parent path extended by the relationship key and the related id |
| `Paths.RefInjective` | src/data.js:407-424 | with an injective `pathForType` and non-empty ids, two records share a location iff they share type and id |
| `Paths.EmptyIdNamesCollection` | src/data.js:420-422 | an empty id is falsy, so the record location is the collection |
| `Paths.RelationshipRefBelowRecord` | src/data.js:429-431 | a relationship location lies strictly below its record and is never a record or collection location |
| `BatchQueue.Enqueue` | src/data.js:460-465 | appends at the end and asks for a flush iff the queue was empty |
| `BatchQueue.EnqueueOnBusyQueue` | src/data.js:460-465 | on a non-empty queue any run of enqueues appends in order and asks for no flush |
| `BatchQueue.BurstSchedulesOneFlush` | src/data.js:441-465 | a burst of actions on an idle queue asks for exactly one flush and keeps enqueue order |
| `BatchQueue.Flush` | src/data.js:448-455 | without a throwing callback every queued item is applied once in FIFO order and the queue ends empty, callbacks enqueued meanwhile being lost; otherwise the applied items are the prefix up to the first thrower and the queue keeps them plus what was enqueued; no flush is ever asked for |
| `Fetch.StartFind` | src/data.js:143-150 | a fetch starts unresolved and listens for `value` at the record's location |
| `Fetch.OnFindEvent` | src/data.js:150-184 | every event queues one more resolve or reject of the promise iff the fetch was unresolved; the first value rejects on null and otherwise resolves with the id-stamped payload; later values queue a destroy iff null and held by the store, else a push; a cancel after resolution changes nothing |
| `Fetch.ResolvedNeverSettles` | src/data.js:154-177 | once resolved, no run of events settles the promise again |
| `Fetch.FindQueuesOneSettlement` | src/data.js:150-178 | when the first event is a value, exactly one resolve or reject of the promise is queued over any run of events; it settles the promise only once a flush runs it |
| `Fetch.FirstValueCarriesId` | src/data.js:150-162 | the first object value queues the resolve of the promise, with a payload whose `id` is the snapshot key; the promise settles when a flush runs it |
| `Fetch.AddEventListeners` | src/data.js:230-259 | an unregistered type gets the three child listeners at its collection and is registered; a registered one gets none |
| `Fetch.ListenersAttachedAtMostOnce` | src/data.js:230-238 | over any sequence of requests, each child listener is attached exactly once for a newly requested type and never otherwise |
| `Fetch.FindAll` | src/data.js:197-219 | queues exactly one resolve or reject of its promise, asking for a flush iff the queue was empty: a reject on null without registering listeners, else a resolve with the key-stamped children in snapshot order, then the listeners are registered |
| `Fetch.OnChildValue` | src/data.js:264-271 | exactly one item is queued: a push of the type carrying the snapshot stamped with its key, so an object keeps every other field and gets `id` equal to the key; a flush is asked for iff the queue was empty |
| `Fetch.OnChildRemoved` | src/data.js:252-258 | throws iff the store holds the record; nothing is ever queued |
| `Writes.SettleWrite` | src/data.js:366-375 | a write's promise rejects with the callback's error iff that error is truthy, else fulfils |
| `Writes.Decide` | src/data.js:354-384 | an embedded id is written iff held and dirty, a reference iff not held or dirty; an unheld embedded id fails; embedded writes merge the serialized record at `parent/key/id`, references set `true` there |
| `Writes.WantedWritesMembers` | src/data.js:354-384 | a write is among a relationship's wanted writes iff some id's decision is that write |
| `Writes.SaveRelatedRecord` | src/data.js:359-384 | at most one write, issued iff one is wanted; the promise stays pending iff the id is skipped, is rejected with the `serialize` TypeError for an embedded id the store does not hold, and otherwise follows the write; any write lands at the id below the relationship and is the marker `true` or a merge |
| `Writes.CleanRelatedNeverSettles` | src/data.js:365-382 | a held, clean related record is not written and its promise never settles |
| `Writes.Rejections` | src/data.js:339-345 | the reasons list is empty iff nothing was rejected and holds exactly the rejected reasons |
| `Writes.RejectionsAppend` | src/data.js:339-345 | the reasons keep the outcomes' order |
| `Writes.RejectionsCount` | src/data.js:339-345 | one reason per rejected outcome |
| `Writes.Aggregate` | src/data.js:338-347 | pending iff some outcome is; fulfilled with the outcomes iff all fulfilled; otherwise one error naming the related type and listing every rejected reason |
| `Writes.SaveEach` | src/data.js:334-336 | every id gets its own outcome in order; the writes are exactly the wanted writes, in id order, each at `parent/key/id` for one of the ids |
| `Writes.SaveEachWritesIgnoreTransport` | src/data.js:333-336 | one id's failure never changes which writes are issued for the others |
| `Writes.SaveHasMany` | src/data.js:329-349 | throws iff the ids are not an array; otherwise issues exactly the wanted write of each id, in id order, and aggregates their outcomes |
| `Writes.SaveHasManyOutcome` | src/data.js:329-348 | pending iff some id is skipped; fulfilled iff every id's write succeeded |
| `Writes.SaveHasManyPendingIffSkip` | src/data.js:338-347 | a relationship save is pending iff one of its ids needs no write |
| `Writes.SaveRelationships` | src/data.js:299-312 | every relationship write lies two levels below the record and is a merge or a `true` marker |
| `Writes.SaveRelationshipsWrites` | src/data.js:299-312 | the relationship pass issues exactly the reference writes: the wanted id writes of each hasMany array, in declaration order and then id order |
| `Writes.SaveRelationshipsScalar` | src/data.js:299-312 | the fields left to merge are the serialized record minus its hasMany arrays, everything else unchanged |
| `Writes.SaveRelationshipsPending` | src/data.js:299-314 | some relationship save stays pending iff some hasMany id needs no write |
| `Writes.UpdateRecord` | src/data.js:290-324 | the merge at the record's location is the last write, issued iff the save settles, and carries no hasMany array and no other change; the outcome is that merge's, whatever happened to the relationships; all earlier writes lie below the record |
| `Writes.UpdateRecordWrites` | src/data.js:290-324 | `updateRecord` first issues exactly the reference relationship writes, then one more write (the merge) iff it settles |
| `Writes.UpdateRecordHangsIffSkippedId` | src/data.js:313-322 | `updateRecord` stays pending iff some hasMany id needs no write |
| `Writes.SaveRelationshipsIgnoreTransport` | src/data.js:299-312 | the relationship writes, remaining fields and pending saves do not depend on any write's result |
| `Writes.SaveHasManyIgnoresTransport` | src/data.js:329-348 | one relationship's writes and pendingness do not depend on any write's result |
| `Writes.UpdateRecordWritesIgnoreTransport` | src/data.js:297-322 | a failing write never suppresses or adds another |
| `Writes.CreateRecord` | src/data.js:277-279 | `createRecord` is `updateRecord` |
| `Writes.DeleteRecord` | src/data.js:389-402 | removes the record's location and queues the rejection with the callback's error iff it is truthy, else the resolution; a flush is asked for iff the queue was empty |

## Left out

- The Firebase client (`on`, `once`, `set`, `update`, `remove`, `child`): it is an external transport. Events are inputs, writes are recorded commands, and completion errors come from a `Transport` function. How Firebase splits a child name containing `/` is not modelled.
- `generateIdForRecord` (`push().name()`): it only asks the Firebase client for an id.
- `Ember.run.later` and the 50 ms `_queueFlushDelay`: wall-clock scheduling. Only the request for a flush is kept.
- RSVP internals: promises are `Settlement` values. Which callbacks settle which promise is modelled; the asynchronous delivery of `then` handlers is not.
- `Ember.String.camelize` and `pluralize` (`pathForType`): library naming conventions, left as the opaque `Env.pathForType`.
- Error message text (`.fmt`) and the `error.location` annotation: cosmetic.
- The `window.DS` guard, `init`'s check that `firebase` is set, and the application initializer: bootstrap wiring.
- `JSONSerializer.normalize` (the `_super` call): attribute transforms are outside this core, so it is taken as the identity.
- What the store does when a queued callback runs (`push`, `destroyRecord`, promise settlement): it is reduced to the `Effect` it has on the queue.
- JavaScript numbers are integers here. Object keys are enumerated in association-list order; JavaScript's rule of enumerating integer-like keys first is not modelled.
- An array or string payload is taken to have no named fields. JavaScript would answer a relationship named `length`.
- Setting `id` on an array is invisible in the model, because an array's properties are not its elements.
- `Writes.SaveHasMany`: the ids of a hasMany array are required to be strings, because Ember Data keeps record ids as strings. A non-string id would reach Firebase's `child()`, which is not modelled.
- `Writes.UpdateRecord`: the same string-id requirement applies, for the same reason.
- `Serializer.EmbeddedEntries`: `Ember.keys` on a primitive embedded value (a string, number or boolean) is taken to throw, as ES5's `Object.keys` does. An ES2015 engine instead lists a string's indices and a number's or boolean's empty key set, and `extractSingle` would push those values; that behaviour is not modelled.
- `Writes.SaveRelationships`: a serialized hasMany value that is an array-like object (one with a `length` key) is kept as a plain field. In the code, `Ember.isArray` accepts it and `ids.map` then throws. Ember Data serializes hasMany relationships as arrays of ids, so the case is not modelled.
- `Writes.SaveRelatedRecord`: every Firebase write is taken to get its completion callback. The `Transport` function always answers. In the program, `set`, `update` and `remove` call back only once the server acknowledges the write, so an unacknowledged write leaves its promise pending.
- `Writes.SaveHasManyOutcome`: "pending iff some id is skipped" holds only under the same assumption that every write is acknowledged; an unacknowledged write is a second way to stay pending.
- `Writes.SaveHasManyPendingIffSkip`: the same acknowledgement assumption applies.
- `Writes.SaveRelationshipsPending`: the same acknowledgement assumption applies.
- `Writes.UpdateRecordHangsIffSkippedId`: the same acknowledgement assumption applies; `updateRecord` also hangs when a relationship write or the merge is never acknowledged.
- `Fetch.AddEventListeners`: the registry is keyed by the type's key string. The program indexes `_findAllMapForType[type]` with the model class itself, so the key is the class's `toString()`. Distinct types are assumed to print differently. Two types that print alike, such as two unnamed subclasses printing "(subclass of DS.Model)", share one entry, and the second never gets its child listeners.
- `Fetch.ListenersAttachedAtMostOnce`: "once per newly requested type" rests on the same assumption that distinct types print differently.
- Live-update errors after `find` has resolved are dropped by the source, and the model drops them too.

=== FILE: basics.dfy ===
/** Option and Result, the failure-compatible wrappers the rest of the model uses
    in place of JavaScript's `undefined` and thrown exceptions. */
module Basics {

  /** A value that may be absent (`undefined` in the source). */
  datatype Option<+T> = None | Some(value: T)

  /** A computation that either returns a value or throws an error. */
  datatype Result<+T, +E> = Success(value: T) | Failure(error: E) {

    predicate IsFailure() {
      Failure?
    }

    function PropagateFailure<U>(): Result<U, E>
      requires Failure?
    {
      Failure(error)
    }

    function Extract(): T
      requires Success?
    {
      value
    }
  }
}

=== FILE: batch_queue.dfy ===
/** The adapter's batching queue (`_enqueue`, `_queueScheduleFlush`,
    `_queueFlush`). The 50 ms delay of `Ember.run.later` is not modelled as
    time: enqueueing reports whether it asked for a flush. */
module BatchQueue {
  import opened Json

  /** The callbacks the adapter queues. Promise identities are plain numbers. */
  datatype Callback =
    | ResolvePromise(promise: nat)
    | RejectPromise(promise: nat)
    /** `store.push(type, serializer.extractSingle(store, type, payload))`. */
    | PushRecord(typeKey: string, payload: Value)
    /** `store.getById(type, id).destroyRecord()`. */
    | DestroyRecord(typeKey: string, id: string)

  /** `[callback, args]`; absent args are the empty list (`fn.apply(null, undefined)`). */
  datatype QueueItem = QueueItem(callback: Callback, args: seq<Value>)

  datatype Enqueued = Enqueued(queue: seq<QueueItem>, scheduleFlush: bool)

  /** `_enqueue(callback, args)`: append, and schedule a flush when the queue now
      holds exactly one item. */
  function Enqueue(queue: seq<QueueItem>, item: QueueItem): (r: Enqueued)
    ensures |r.queue| == |queue| + 1 && r.queue[..|queue|] == queue && r.queue[|queue|] == item
    ensures r.scheduleFlush <==> queue == []
  {
    var q := queue + [item];
    assert q[..|queue|] == queue;
    Enqueued(q, |q| == 1)
  }

  /** Enqueueing a run of items: the final queue and how many flushes were asked for. */
  datatype Batch = Batch(queue: seq<QueueItem>, flushesScheduled: nat)

  function EnqueueAll(queue: seq<QueueItem>, items: seq<QueueItem>): Batch
    decreases |items|
  {
    if |items| == 0 then Batch(queue, 0)
    else
      var e := Enqueue(queue, items[0]);
      var rest := EnqueueAll(e.queue, items[1..]);
      Batch(rest.queue, rest.flushesScheduled + (if e.scheduleFlush then 1 else 0))
  }

  /** On a non-empty queue, enqueueing never schedules another flush. */
  lemma {:induction false} EnqueueOnBusyQueue(queue: seq<QueueItem>, items: seq<QueueItem>)
    requires queue != []
    ensures EnqueueAll(queue, items) == Batch(queue + items, 0)
    decreases |items|
  {
    if |items| > 0 {
      var e := Enqueue(queue, items[0]);
      assert e.queue == queue + [items[0]];
      EnqueueOnBusyQueue(e.queue, items[1..]);
      assert queue + [items[0]] + items[1..] == queue + items;
    }
  }

  /** A burst of actions on an idle queue asks for exactly one flush and keeps
      the actions in their order. */
  lemma BurstSchedulesOneFlush(items: seq<QueueItem>)
    requires items != []
    ensures EnqueueAll([], items) == Batch(items, 1)
  {
    var e := Enqueue([], items[0]);
    assert e.queue == [items[0]];
    EnqueueOnBusyQueue(e.queue, items[1..]);
    assert [items[0]] + items[1..] == items;
  }

  /** What running one queued callback does, as far as the queue is concerned:
      the callbacks it enqueues while it runs, and whether it then throws. */
  datatype Effect = Effect(enqueues: seq<QueueItem>, throws: bool)

  /** Everything the given callbacks enqueue while they run, in order. */
  function Spawned(items: seq<QueueItem>, run: QueueItem -> Effect): seq<QueueItem>
    decreases |items|
  {
    if |items| == 0 then [] else Spawned(items[..|items| - 1], run) + run(items[|items| - 1]).enqueues
  }

  datatype FlushResult = FlushResult(applied: seq<QueueItem>, queue: seq<QueueItem>, scheduled: bool, threw: bool)

  /** `_queueFlush`: `forEach` over the queue (its length fixed when it starts),
      then `this._queue.length = 0`. Callbacks enqueued while flushing are not
      visited and are then wiped; a callback that throws ends the flush before
      the queue is cleared. */
  method Flush(queue: seq<QueueItem>, run: QueueItem -> Effect) returns (r: FlushResult)
    ensures !r.scheduled
    ensures r.threw <==> exists j :: 0 <= j < |queue| && run(queue[j]).throws
    ensures !r.threw ==> r.applied == queue && r.queue == []
    ensures r.threw ==>
      && 0 < |r.applied| <= |queue|
      && r.applied == queue[..|r.applied|]
      && run(queue[|r.applied| - 1]).throws
      && (forall j :: 0 <= j < |r.applied| - 1 ==> !run(queue[j]).throws)
      && r.queue == queue + Spawned(r.applied, run)
  {
    var pending := queue;
    var applied: seq<QueueItem> := [];
    var scheduled := false;
    var i := 0;
    while i < |queue|
      invariant 0 <= i <= |queue|
      invariant applied == queue[..i]
      invariant pending == queue + Spawned(applied, run)
      invariant !scheduled
      invariant forall j :: 0 <= j < i ==> !run(queue[j]).throws
    {
      var item := pending[i];
      assert item == queue[i];
      applied := applied + [item];
      var effect := run(item);
      var k := 0;
      ghost var before := pending;
      while k < |effect.enqueues|
        invariant 0 <= k <= |effect.enqueues|
        invariant pending == before + effect.enqueues[..k]
        invariant !scheduled
      {
        var e := Enqueue(pending, effect.enqueues[k]);
        assert pending != [] by { assert |before| >= |queue| > i; }
        pending := e.queue;
        scheduled := scheduled || e.scheduleFlush;
        assert effect.enqueues[..k + 1] == effect.enqueues[..k] + [effect.enqueues[k]];
        k := k + 1;
      }
      assert effect.enqueues[..k] == effect.enqueues;
      assert applied[..|applied| - 1] == queue[..i];
      if effect.throws {
        return FlushResult(applied, pending, scheduled, true);
      }
      i := i + 1;
    }
    assert queue[..i] == queue;
    pending := [];
    return FlushResult(applied, pending, scheduled, false);
  }
}

=== FILE: fetch.dfy ===
/** The read side of `DS.FirebaseAdapter`: `find`, `findAll`, the per-type
    listener registry and the child event handlers (src/data.js:129-271).
    Firebase delivers events; each handler turns one event into queued
    callbacks. */
module Fetch {
  import opened Basics
  import opened Json
  import opened Outcomes
  import opened Paths
  import opened LocalStore
  import opened BatchQueue

  datatype EventKind = Value | ChildAdded | ChildChanged | ChildRemoved

  /** A listener registered with `ref.on(event, ...)` for a type. */
  datatype Subscription = Subscription(typeKey: string, path: Path, event: EventKind)

  /** Whether a queued callback settles the given promise. */
  predicate SettlesPromise(item: QueueItem, promise: nat) {
    item.callback == ResolvePromise(promise) || item.callback == RejectPromise(promise)
  }

  /** How many queued callbacks settle the promise; none exactly when the
      count is zero. */
  function SettleCount(items: seq<QueueItem>, promise: nat): (n: nat)
    ensures n == 0 <==> forall i :: 0 <= i < |items| ==> !SettlesPromise(items[i], promise)
    decreases |items|
  {
    if |items| == 0 then 0
    else
      assert forall i :: 0 <= i < |items| - 1 ==> items[..|items| - 1][i] == items[i];
      SettleCount(items[..|items| - 1], promise) + (if SettlesPromise(items[|items| - 1], promise) then 1 else 0)
  }

  lemma SettleCountAppend(items: seq<QueueItem>, item: QueueItem, promise: nat)
    ensures SettleCount(items + [item], promise) ==
            SettleCount(items, promise) + (if SettlesPromise(item, promise) then 1 else 0)
  {
    assert (items + [item])[..|items|] == items;
  }

  // --------------------------------------------------------------------- find

  /** One `find(store, type, id)`: the type, its promise, and the `resolved` flag. */
  datatype FindState = FindState(typeKey: string, promise: nat, resolved: bool)

  /** `find` starts unresolved and listens for `value` at the record's location. */
  function StartFind(env: Env, typeKey: string, id: string, promise: nat): (r: (FindState, Subscription))
    ensures !r.0.resolved && r.0.promise == promise
    ensures r.1 == Subscription(typeKey, Ref(env, typeKey, Some(id)), Value)
  {
    (FindState(typeKey, promise, false), Subscription(typeKey, Ref(env, typeKey, Some(id)), Value))
  }

  /** A `value` snapshot (its key and value), or the cancel callback's error. */
  datatype FindEvent = ValueEvent(name: string, val: Value) | CancelEvent(err: Value)

  datatype FindStep = FindStep(state: FindState, queue: seq<QueueItem>, scheduleFlush: bool)

  /** The two callbacks `find` registers. The first `value` event queues the
      promise's settlement (a reject on null, else a resolve with the id-stamped
      payload) and sets `resolved`; later ones queue a destroy of a record the store holds when the
      value is null, and a push otherwise. The cancel callback rejects only
      before resolution, and does not set `resolved`. */
  function OnFindEvent(f: FindState, ev: FindEvent, store: Store, queue: seq<QueueItem>): (r: FindStep)
    ensures r.state == f.(resolved := f.resolved || ev.ValueEvent?)
    ensures SettleCount(r.queue, f.promise) == SettleCount(queue, f.promise) + (if f.resolved then 0 else 1)
    ensures !f.resolved && ev.ValueEvent? ==>
      r.queue == queue + [if ev.val.Null? then QueueItem(RejectPromise(f.promise), [])
                          else QueueItem(ResolvePromise(f.promise), [StampId(ev.name, ev.val)])]
    ensures f.resolved && ev.ValueEvent? ==>
      r.queue == queue + [if ev.val.Null? && HasRecord(store, f.typeKey, ev.name)
                          then QueueItem(DestroyRecord(f.typeKey, ev.name), [])
                          else QueueItem(PushRecord(f.typeKey, StampId(ev.name, ev.val)), [])]
    ensures !f.resolved && ev.CancelEvent? ==> r.queue == queue + [QueueItem(RejectPromise(f.promise), [ev.err])]
    ensures f.resolved && ev.CancelEvent? ==> r.queue == queue && !r.scheduleFlush
    ensures r.scheduleFlush <==> queue == [] && r.queue != []
  {
    match ev
    case ValueEvent(name, val) =>
      var payload := StampId(name, val);
      var item :=
        if !f.resolved then
          (if payload.Null? then QueueItem(RejectPromise(f.promise), [])
           else QueueItem(ResolvePromise(f.promise), [payload]))
        else if payload.Null? && HasRecord(store, f.typeKey, name) then
          QueueItem(DestroyRecord(f.typeKey, name), [])
        else QueueItem(PushRecord(f.typeKey, payload), []);
      var e := Enqueue(queue, item);
      SettleCountAppend(queue, item, f.promise);
      FindStep(f.(resolved := true), e.queue, e.scheduleFlush)
    case CancelEvent(err) =>
      if f.resolved then FindStep(f, queue, false)
      else
        var item := QueueItem(RejectPromise(f.promise), [err]);
        var e := Enqueue(queue, item);
        SettleCountAppend(queue, item, f.promise);
        FindStep(f, e.queue, e.scheduleFlush)
  }

  /** A sequence of events, each seen with the store as it is at that moment. */
  function RunFind(f: FindState, events: seq<(FindEvent, Store)>, queue: seq<QueueItem>): FindStep
    decreases |events|
  {
    if |events| == 0 then FindStep(f, queue, false)
    else
      var s := OnFindEvent(f, events[0].0, events[0].1, queue);
      var rest := RunFind(s.state, events[1..], s.queue);
      FindStep(rest.state, rest.queue, s.scheduleFlush || rest.scheduleFlush)
  }

  /** Once resolved, no event settles the promise again. */
  lemma {:induction false} ResolvedNeverSettles(f: FindState, events: seq<(FindEvent, Store)>, queue: seq<QueueItem>)
    requires f.resolved
    ensures RunFind(f, events, queue).state == f
    ensures SettleCount(RunFind(f, events, queue).queue, f.promise) == SettleCount(queue, f.promise)
    decreases |events|
  {
    if |events| > 0 {
      var s := OnFindEvent(f, events[0].0, events[0].1, queue);
      ResolvedNeverSettles(s.state, events[1..], s.queue);
    }
  }

  /** When the first event is a `value` event, exactly one resolve or reject
      of the promise is queued over any run of events, and the fetch stays
      resolved. (The promise settles only when a flush runs that callback.) */
  lemma FindQueuesOneSettlement(f: FindState, events: seq<(FindEvent, Store)>, queue: seq<QueueItem>)
    requires !f.resolved
    requires |events| > 0 && events[0].0.ValueEvent?
    ensures RunFind(f, events, queue).state.resolved
    ensures SettleCount(RunFind(f, events, queue).queue, f.promise) == SettleCount(queue, f.promise) + 1
  {
    var s := OnFindEvent(f, events[0].0, events[0].1, queue);
    ResolvedNeverSettles(s.state, events[1..], s.queue);
  }

  /** The promise resolves with the snapshot's key as the payload's `id`. */
  lemma FirstValueCarriesId(f: FindState, name: string, fields: seq<(string, Value)>, store: Store,
                            queue: seq<QueueItem>)
    requires !f.resolved
    ensures var r := OnFindEvent(f, ValueEvent(name, Obj(fields)), store, queue);
      var item := r.queue[|queue|];
      item.callback == ResolvePromise(f.promise) && |item.args| == 1 && item.args[0].Obj? &&
      Lookup(item.args[0].fields, "id") == Some(Str(name))
  {
  }

  // ------------------------------------------------------------------ findAll

  /** The per-type registry `_findAllMapForType`: the types whose child
      listeners are attached, named by their key string (distinct types are
      taken to print differently). */
  type Registry = set<string>

  datatype Listeners = Listeners(registry: Registry, attached: seq<Subscription>)

  /** `_findAllAddEventListeners(store, type)`: attaches the three child
      listeners at the type's collection, once per type. */
  function AddEventListeners(env: Env, registry: Registry, typeKey: string): (r: Listeners)
    ensures r.registry == registry + {typeKey}
    ensures typeKey in registry ==> r.attached == []
    ensures typeKey !in registry ==>
      var at := Ref(env, typeKey, None);
      r.attached == [Subscription(typeKey, at, ChildAdded), Subscription(typeKey, at, ChildChanged),
                     Subscription(typeKey, at, ChildRemoved)]
  {
    if typeKey in registry then Listeners(registry, [])
    else
      var at := Ref(env, typeKey, None);
      Listeners(registry + {typeKey},
                [Subscription(typeKey, at, ChildAdded), Subscription(typeKey, at, ChildChanged),
                 Subscription(typeKey, at, ChildRemoved)])
  }

  /** Repeated registration requests, in order; attachments accumulate. */
  function AddEventListenersAll(env: Env, registry: Registry, types: seq<string>): Listeners
    decreases |types|
  {
    if |types| == 0 then Listeners(registry, [])
    else
      var first := AddEventListeners(env, registry, types[0]);
      var rest := AddEventListenersAll(env, first.registry, types[1..]);
      Listeners(rest.registry, first.attached + rest.attached)
  }

  function Attached(subs: seq<Subscription>, typeKey: string, event: EventKind): nat
    decreases |subs|
  {
    if |subs| == 0 then 0
    else (if subs[0].typeKey == typeKey && subs[0].event == event then 1 else 0) + Attached(subs[1..], typeKey, event)
  }

  lemma AttachedAppend(a: seq<Subscription>, b: seq<Subscription>, typeKey: string, event: EventKind)
    ensures Attached(a + b, typeKey, event) == Attached(a, typeKey, event) + Attached(b, typeKey, event)
    decreases |a|
  {
    if |a| > 0 {
      assert (a + b)[1..] == a[1..] + b;
      AttachedAppend(a[1..], b, typeKey, event);
    } else {
      assert a + b == b;
    }
  }

  /** However often listeners are requested, each type gets each child listener
      exactly once if it was not registered before and was requested, and never
      otherwise. */
  lemma {:induction false} ListenersAttachedAtMostOnce(env: Env, registry: Registry, types: seq<string>,
                                                       t: string, event: EventKind)
    requires event != Value
    ensures AddEventListenersAll(env, registry, types).registry == registry + set x | x in types
    ensures Attached(AddEventListenersAll(env, registry, types).attached, t, event) ==
      if t !in registry && t in types then 1 else 0
    decreases |types|
  {
    if |types| > 0 {
      var first := AddEventListeners(env, registry, types[0]);
      ListenersAttachedAtMostOnce(env, first.registry, types[1..], t, event);
      var rest := AddEventListenersAll(env, first.registry, types[1..]);
      AttachedAppend(first.attached, rest.attached, t, event);
      assert (set x | x in types) == {types[0]} + set x | x in types[1..] by {
        assert types == [types[0]] + types[1..];
      }
      if types[0] !in registry {
        AttachedFresh(env, types[0], t, event);
      }
    }
  }

  /** A fresh registration attaches each child listener of its type once. */
  lemma AttachedFresh(env: Env, typeKey: string, t: string, event: EventKind)
    requires event != Value
    ensures Attached(AddEventListeners(env, {}, typeKey).attached, t, event) == if t == typeKey then 1 else 0
  {
    var at := Ref(env, typeKey, None);
    var s0, s1, s2 := Subscription(typeKey, at, ChildAdded), Subscription(typeKey, at, ChildChanged),
                      Subscription(typeKey, at, ChildRemoved);
    assert [s0, s1, s2][1..] == [s1, s2] && [s1, s2][1..] == [s2] && [s2][1..] == [];
    assert Attached([s2], t, event) == (if t == typeKey && event == ChildRemoved then 1 else 0);
    assert Attached([s1, s2], t, event) == (if t == typeKey && event != ChildAdded then 1 else 0);
  }

  /** The collection snapshot of `ref.once('value')`: null, or the children in
      snapshot order as `snapshot.forEach` visits them. */
  datatype CollectionSnapshot = NoData | Children(entries: seq<(string, Value)>)

  datatype FindAllResult = FindAllResult(queue: seq<QueueItem>, scheduleFlush: bool, listeners: Listeners)

  /** `findAll(store, type)` once its one-shot read has answered: queue a reject
      on null; otherwise queue a resolve with the children, each stamped with its key, and only
      then register the child listeners. */
  function FindAll(env: Env, typeKey: string, promise: nat, snapshot: CollectionSnapshot, registry: Registry,
                   queue: seq<QueueItem>): (r: FindAllResult)
    ensures SettleCount(r.queue, promise) == SettleCount(queue, promise) + 1
    ensures |r.queue| == |queue| + 1 && r.queue[..|queue|] == queue
    ensures snapshot.NoData? ==>
      r.queue[|queue|] == QueueItem(RejectPromise(promise), []) && r.listeners == Listeners(registry, [])
    ensures snapshot.Children? ==>
      && r.queue[|queue|].callback == ResolvePromise(promise)
      && |r.queue[|queue|].args| == 1
      && r.queue[|queue|].args[0] == Arr(StampAll(snapshot.entries))
      && r.listeners == AddEventListeners(env, registry, typeKey)
    ensures r.scheduleFlush <==> queue == []
  {
    var item := if snapshot.NoData? then QueueItem(RejectPromise(promise), [])
                else QueueItem(ResolvePromise(promise), [Arr(StampAll(snapshot.entries))]);
    var e := Enqueue(queue, item);
    SettleCountAppend(queue, item, promise);
    var listeners := if snapshot.NoData? then Listeners(registry, []) else AddEventListeners(env, registry, typeKey);
    FindAllResult(e.queue, e.scheduleFlush, listeners)
  }

  // ----------------------------------------------------------- child listeners

  /** `_handleChildValue`: a `child_added` or `child_changed` snapshot is pushed
      into the store, stamped with its key. */
  function OnChildValue(typeKey: string, name: string, val: Value, queue: seq<QueueItem>): (r: Enqueued)
    ensures |r.queue| == |queue| + 1 && r.queue[..|queue|] == queue
    ensures r.queue[|queue|].callback.PushRecord? && r.queue[|queue|].callback.typeKey == typeKey
    ensures r.queue[|queue|] == QueueItem(PushRecord(typeKey, StampId(name, val)), [])
    ensures val.Obj? ==> FieldOf(r.queue[|queue|].callback.payload, "id") == Some(Str(name))
    ensures val.Obj? ==> forall k :: k != "id" ==> FieldOf(r.queue[|queue|].callback.payload, k) == FieldOf(val, k)
    ensures !val.Obj? ==> r.queue[|queue|].callback.payload == val
    ensures r.scheduleFlush <==> queue == []
  {
    Enqueue(queue, QueueItem(PushRecord(typeKey, StampId(name, val)), []))
  }

  /** The `child_removed` listener: when the store holds the record it calls
      `this._enqueue` with `this` undefined, which throws; otherwise it does
      nothing. Either way nothing is queued. */
  function OnChildRemoved(typeKey: string, name: string, store: Store,
                          queue: seq<QueueItem>): (r: Result<Enqueued, Error>)
    ensures r.Failure? <==> HasRecord(store, typeKey, name)
    ensures r.Failure? ==> r.error == UnboundReceiver
    ensures r.Success? ==> r.value == Enqueued(queue, false)
  {
    if HasRecord(store, typeKey, name) then Failure(UnboundReceiver)
    else Success(Enqueued(queue, false))
  }
}

=== FILE: json.dfy ===
/** JSON-like payloads as the Firebase client hands them over and as the store
    receives them. An object is an ORDERED association list: the order in which
    its keys are enumerated is the order of the related ids a relationship
    becomes, so it is part of the value. */
module Json {
  import opened Basics

  datatype Value =
    | Null
    | Bool(b: bool)
    | Num(n: int)
    | Str(s: string)
    | Arr(items: seq<Value>)
    | Obj(fields: seq<(string, Value)>)

  /** JavaScript's `typeof v === 'object'`: true of null, arrays and objects. */
  predicate IsObjectLike(v: Value) {
    v.Null? || v.Arr? || v.Obj?
  }

  /** `Ember.isArray`: a real array, or an array-like object, which is any
      object with a `length` property. */
  predicate IsEmberArray(v: Value) {
    v.Arr? || (v.Obj? && Lookup(v.fields, "length").Some?)
  }

  /** JavaScript truthiness: `null`, `false`, `0` and `""` are falsy; arrays
      and objects are always truthy. */
  predicate IsTruthy(v: Value) {
    match v
    case Null => false
    case Bool(b) => b
    case Num(n) => n != 0
    case Str(s) => s != ""
    case _ => true
  }

  /** The keys of an object, in enumeration order (`Ember.keys`). */
  function Keys(fields: seq<(string, Value)>): (ks: seq<string>)
    ensures |ks| == |fields|
    ensures forall i :: 0 <= i < |fields| ==> ks[i] == fields[i].0
  {
    if |fields| == 0 then [] else [fields[0].0] + Keys(fields[1..])
  }

  /** Property read `obj[key]`; `None` is `undefined`. */
  function Lookup(fields: seq<(string, Value)>, key: string): (r: Option<Value>)
    ensures r.None? <==> key !in Keys(fields)
    ensures r.Some? ==> (key, r.value) in fields
  {
    if |fields| == 0 then None
    else if fields[0].0 == key then Some(fields[0].1)
    else Lookup(fields[1..], key)
  }

  /** Property write `obj[key] = v`: an existing key keeps its position, a new
      key is appended. */
  function SetField(fields: seq<(string, Value)>, key: string, v: Value): (r: seq<(string, Value)>)
    ensures Lookup(r, key) == Some(v)
    ensures forall k :: k != key ==> Lookup(r, k) == Lookup(fields, k)
    decreases |fields|
  {
    if |fields| == 0 then [(key, v)]
    else if fields[0].0 == key then
      assert ([(key, v)] + fields[1..])[1..] == fields[1..];
      [(key, v)] + fields[1..]
    else
      var rest := SetField(fields[1..], key, v);
      assert ([fields[0]] + rest)[1..] == rest;
      [fields[0]] + rest
  }

  /** Writing an existing key keeps the key order; a new key goes last. */
  lemma {:induction false} SetFieldKeys(fields: seq<(string, Value)>, key: string, v: Value)
    ensures Keys(SetField(fields, key, v)) == if key in Keys(fields) then Keys(fields) else Keys(fields) + [key]
    decreases |fields|
  {
    if |fields| > 0 {
      var r := SetField(fields, key, v);
      assert Keys(fields) == [fields[0].0] + Keys(fields[1..]);
      if fields[0].0 == key {
        assert r[1..] == fields[1..];
        assert Keys(r) == [key] + Keys(fields[1..]);
      } else {
        SetFieldKeys(fields[1..], key, v);
        var rest := SetField(fields[1..], key, v);
        assert r[1..] == rest;
        assert Keys(r) == [fields[0].0] + Keys(rest);
      }
    }
  }

  /** `delete obj[key]`. */
  function RemoveField(fields: seq<(string, Value)>, key: string): (r: seq<(string, Value)>)
    ensures Lookup(r, key) == None
    ensures forall k :: k != key ==> Lookup(r, k) == Lookup(fields, k)
  {
    if |fields| == 0 then []
    else if fields[0].0 == key then RemoveField(fields[1..], key)
    else
      var rest := RemoveField(fields[1..], key);
      assert ([fields[0]] + rest)[1..] == rest;
      [fields[0]] + rest
  }

  /** A property read on an arbitrary value: only objects have named fields. */
  function FieldOf(v: Value, key: string): Option<Value> {
    if v.Obj? then Lookup(v.fields, key) else None
  }

  /** The list of keys of an object as the store receives it: an array of id strings. */
  function KeyList(fields: seq<(string, Value)>): (r: Value)
    ensures r.Arr? && |r.items| == |fields|
    ensures forall i :: 0 <= i < |fields| ==> r.items[i] == Str(fields[i].0)
  {
    Arr(seq(|fields|, i requires 0 <= i < |fields| => Str(fields[i].0)))
  }

  /** `payload.id = name` applied only when the payload is a non-null object
      (`_assignIdToPayload`, and the stamping of embedded records). An id
      property set on an array is not one of its elements, so arrays are
      returned as they are. */
  function StampId(name: string, v: Value): (r: Value)
    ensures v.Obj? ==> r.Obj? && Lookup(r.fields, "id") == Some(Str(name))
    ensures v.Obj? ==> forall k :: k != "id" ==> Lookup(r.fields, k) == Lookup(v.fields, k)
    ensures !v.Obj? ==> r == v
  {
    if v.Obj? then Obj(SetField(v.fields, "id", Str(name))) else v
  }

  /** Every entry of an object, each stamped with its own key. */
  function StampAll(entries: seq<(string, Value)>): (r: seq<Value>)
    ensures |r| == |entries|
    ensures forall i :: 0 <= i < |entries| ==> r[i] == StampId(entries[i].0, entries[i].1)
  {
    seq(|entries|, i requires 0 <= i < |entries| => StampId(entries[i].0, entries[i].1))
  }

  /** The decimal spelling of an array index, as `for (k in array)` yields it. */
  function IndexKey(n: nat): (r: string)
    ensures 0 < |r|
    ensures forall i :: 0 <= i < |r| ==> '0' <= r[i] <= '9'
  {
    var d := [(n % 10) as char + '0'];
    if n < 10 then d else IndexKey(n / 10) + d
  }

  /** The number a string of decimal digits spells, most significant first. */
  function DecimalValue(s: string): nat
    requires forall i :: 0 <= i < |s| ==> '0' <= s[i] <= '9'
  {
    if |s| == 0 then 0 else DecimalValue(s[..|s| - 1]) * 10 + (s[|s| - 1] as int - '0' as int)
  }

  /** `IndexKey(n)` spells n: the key `for (k in array)` yields names its element. */
  lemma {:induction false} IndexKeyValue(n: nat)
    ensures DecimalValue(IndexKey(n)) == n
    decreases n
  {
    var d := [(n % 10) as char + '0'];
    if n >= 10 {
      IndexKeyValue(n / 10);
      var k := IndexKey(n);
      assert k == IndexKey(n / 10) + d;
      assert k[..|k| - 1] == IndexKey(n / 10);
    }
  }

  /** Distinct array indices get distinct keys. */
  lemma IndexKeyInjective(m: nat, n: nat)
    ensures IndexKey(m) == IndexKey(n) ==> m == n
  {
    IndexKeyValue(m);
    IndexKeyValue(n);
  }
}

=== FILE: local_store.dfy ===
/** The part of Ember Data's store the adapter consults: which records it holds,
    whether each is dirty, and how each serializes. */
module LocalStore {
  import opened Basics
  import opened Json

  /** A record held by the store: `isDirty`, and `serialize({ includeId: false })`. */
  datatype LocalRecord = LocalRecord(dirty: bool, serialized: seq<(string, Value)>)

  /** Records by (type key, id). */
  datatype Store = Store(records: map<(string, string), LocalRecord>)

  /** `store.hasRecordForId(type, id)`. */
  predicate HasRecord(store: Store, typeKey: string, id: string) {
    (typeKey, id) in store.records
  }

  /** `hasRecordForId ? getById : false` at src/data.js:358. */
  function Related(store: Store, typeKey: string, id: string): (r: Option<LocalRecord>)
    ensures r.Some? <==> HasRecord(store, typeKey, id)
    ensures r.Some? ==> r.value == store.records[(typeKey, id)]
  {
    if HasRecord(store, typeKey, id) then Some(store.records[(typeKey, id)]) else None
  }
}

=== FILE: outcomes.dfy ===
/** Errors the adapter and serializer throw or reject with, and the state a
    promise can be in. */
module Outcomes {
  import opened Json

  datatype Error =
    /** A hasMany field given as an array (the thrown error at src/data.js:30). */
    | MalformedRelationship(key: string)
    /** `Ember.keys` applied to something that is not an object (a TypeError). */
    | KeysOfNonObject
    /** A property read on a null payload (a TypeError). */
    | PropertyOfNull
    /** `_saveHasManyRelationship` given ids that are not an array. */
    | NotAnArray
    /** `false.serialize(...)`: an embedded related record the store does not hold. */
    | SerializeOfMissingRecord
    /** The error object a Firebase completion callback reports. */
    | Remote(detail: Value)
    /** The composite error of a hasMany save: the related type and every rejected reason. */
    | RelationshipSaveFailed(relatedType: string, errors: seq<Error>)
    /** `this._enqueue` called with `this` undefined (strict mode), a TypeError. */
    | UnboundReceiver

  /** A promise: never settled, fulfilled with a value, or rejected with a reason. */
  datatype Settlement<+T> = Pending | Fulfilled(value: T) | Rejected(reason: Error)
}

=== FILE: paths.dfy ===
/** Firebase locations as sequences of child names (`_getRef`,
    `_getRelationshipRef`). */
module Paths {
  import opened Basics

  type Path = seq<string>

  /** The adapter's configuration: the path of the root reference it was given,
      and `pathForType` (camelize, then pluralize), kept opaque. */
  datatype Env = Env(root: Path, pathForType: string -> string)

  /** JavaScript truthiness of an optional id: `undefined` and `""` are falsy. */
  predicate Truthy(id: Option<string>) {
    id.Some? && id.value != ""
  }

  /** `_getRef(type, id)`: the collection of the type, then the id when it is truthy. */
  function Ref(env: Env, typeKey: string, id: Option<string>): (p: Path)
    ensures |p| == |env.root| + (if Truthy(id) then 2 else 1)
    ensures p[..|env.root|] == env.root && p[|env.root|] == env.pathForType(typeKey)
    ensures Truthy(id) ==> p[|env.root| + 1] == id.value
  {
    var collection := env.root + [env.pathForType(typeKey)];
    if Truthy(id) then collection + [id.value] else collection
  }

  /** `_getRelationshipRef(ref, key, id)`. */
  function RelationshipRef(parent: Path, key: string, id: string): (p: Path)
    ensures |p| == |parent| + 2 && p[..|parent|] == parent
    ensures p[|parent|] == key && p[|parent| + 1] == id
  {
    parent + [key, id]
  }

  ghost predicate Injective(f: string -> string) {
    forall a, b :: f(a) == f(b) ==> a == b
  }

  /** Two records map to the same location exactly when they have the same type
      and the same id, provided `pathForType` tells types apart and the ids are
      non-empty (an empty id is falsy and names the collection instead). */
  lemma RefInjective(env: Env, t1: string, i1: string, t2: string, i2: string)
    requires Injective(env.pathForType)
    requires i1 != "" && i2 != ""
    ensures Ref(env, t1, Some(i1)) == Ref(env, t2, Some(i2)) <==> t1 == t2 && i1 == i2
  {
    var p1, p2 := Ref(env, t1, Some(i1)), Ref(env, t2, Some(i2));
    if p1 == p2 {
      assert env.pathForType(t1) == p1[|env.root|] == p2[|env.root|] == env.pathForType(t2);
      assert i1 == p1[|env.root| + 1] == p2[|env.root| + 1] == i2;
    }
  }

  /** An empty id is falsy: the "record" location is the collection itself. */
  lemma EmptyIdNamesCollection(env: Env, typeKey: string)
    ensures Ref(env, typeKey, Some("")) == Ref(env, typeKey, None)
  {
  }

  /** A relationship location lies strictly below its parent record, and differs
      from every record location (it is two segments deeper). */
  lemma RelationshipRefBelowRecord(env: Env, typeKey: string, id: string, key: string, relatedId: string,
                                   otherType: string, otherId: Option<string>)
    ensures var p := RelationshipRef(Ref(env, typeKey, Some(id)), key, relatedId);
      Ref(env, typeKey, Some(id)) < p && p != Ref(env, otherType, otherId)
  {
  }
}

=== FILE: schema.dfy ===
/** The relationship declarations of a model type, in the order
    `eachRelationship` visits them. */
module Schema {

  datatype Kind = BelongsTo | HasMany

  /** One declared relationship: its key on the record, its kind, the type key of
      the related model, and `options.embedded === true`. */
  datatype Relationship = Relationship(key: string, kind: Kind, target: string, embedded: bool)

  type Relationships = seq<Relationship>

  /** Relationships of one model are properties of it, so their keys differ. */
  predicate DistinctKeys(rels: Relationships) {
    forall i, j :: 0 <= i < j < |rels| ==> rels[i].key != rels[j].key
  }
}

=== FILE: serializer.dfy ===
/** `DS.FirebaseSerializer` (src/data.js:15-74): rewrites hasMany fields from
    Firebase's `{ id: true }` maps to id lists, and pulls embedded records out. */
module Serializer {
  import opened Basics
  import opened Json
  import opened Outcomes
  import opened Schema

  // ---------------------------------------------------------------- normalize

  /** One relationship's turn in `normalize`. */
  function NormalizeField(rel: Relationship, hash: seq<(string, Value)>): (r: Result<seq<(string, Value)>, Error>)
    ensures r.Success? ==> Keys(r.value) == Keys(hash)
    ensures r.Success? ==> forall k :: k != rel.key ==> Lookup(r.value, k) == Lookup(hash, k)
  {
    if rel.kind != HasMany then Success(hash)
    else match Lookup(hash, rel.key)
      case None => Success(hash)
      case Some(v) =>
        if IsObjectLike(v) && !IsEmberArray(v) && !rel.embedded then
          (if v.Obj? then
             SetFieldKeys(hash, rel.key, KeyList(v.fields));
             Success(SetField(hash, rel.key, KeyList(v.fields)))
           else Failure(KeysOfNonObject))
        else if IsEmberArray(v) then Failure(MalformedRelationship(rel.key))
        else Success(hash)
  }

  /** `normalize` on an object payload: every relationship in declaration order;
      the first error thrown aborts. */
  function NormalizeFields(rels: Relationships, hash: seq<(string, Value)>): (r: Result<seq<(string, Value)>, Error>)
    ensures r.Success? ==> Keys(r.value) == Keys(hash)
    decreases |rels|
  {
    if |rels| == 0 then Success(hash)
    else
      var h :- NormalizeField(rels[0], hash);
      NormalizeFields(rels[1..], h)
  }

  predicate HasHasMany(rels: Relationships) {
    exists i :: 0 <= i < |rels| && rels[i].kind == HasMany
  }

  /** `normalize(type, hash)` on any payload. A null payload throws as soon as a
      hasMany field is read; any other non-object has no named fields. */
  function Normalize(rels: Relationships, payload: Value): (r: Result<Value, Error>)
    ensures r.Success? && payload.Obj? ==> r.value.Obj? && Keys(r.value.fields) == Keys(payload.fields)
    ensures payload.Obj? ==> (r.Success? <==> NormalizeFields(rels, payload.fields).Success?)
    ensures payload.Obj? && r.Success? ==> r.value == Obj(NormalizeFields(rels, payload.fields).value)
    ensures payload.Null? ==> (r.Failure? <==> HasHasMany(rels))
    ensures r.Failure? && !payload.Obj? ==> r.error == PropertyOfNull
    ensures !payload.Obj? && !payload.Null? ==> r == Success(payload)
  {
    match payload
    case Obj(fields) =>
      var f :- NormalizeFields(rels, fields);
      Success(Obj(f))
    case Null => if HasHasMany(rels) then Failure(PropertyOfNull) else Success(Null)
    case _ => Success(payload)
  }

  /** The first relationship declared under a key. */
  function RelationshipFor(rels: Relationships, key: string): (r: Option<Relationship>)
    ensures r.None? <==> forall i :: 0 <= i < |rels| ==> rels[i].key != key
    ensures r.Some? ==> r.value in rels && r.value.key == key
  {
    if |rels| == 0 then None
    else if rels[0].key == key then Some(rels[0])
    else RelationshipFor(rels[1..], key)
  }

  /** Reference description of a normalized field: a non-embedded hasMany field
      holding an object that is not array-like becomes its key list; every
      other field is unchanged. */
  function ExpectedField(rels: Relationships, hash: seq<(string, Value)>, key: string): Option<Value> {
    var original := Lookup(hash, key);
    match RelationshipFor(rels, key)
    case None => original
    case Some(rel) =>
      if rel.kind == HasMany && !rel.embedded && original.Some? && original.value.Obj?
         && !IsEmberArray(original.value)
      then Some(KeyList(original.value.fields))
      else original
  }

  /** Whether a relationship's field passes `normalize`: a hasMany field must not
      be an array or array-like, and a non-embedded one must not be null. */
  predicate FieldAccepted(rel: Relationship, field: Option<Value>) {
    rel.kind != HasMany || field.None? || (!IsEmberArray(field.value) && (field.value.Null? ==> rel.embedded))
  }

  predicate AllAccepted(rels: Relationships, hash: seq<(string, Value)>) {
    forall i :: 0 <= i < |rels| ==> FieldAccepted(rels[i], Lookup(hash, rels[i].key))
  }

  /** `normalize` succeeds exactly when every declared field is acceptable; in
      particular a hasMany array throws whether embedded or not. When it
      succeeds, each field is as `ExpectedField` describes. */
  lemma {:induction false} NormalizeFieldsSpec(rels: Relationships, hash: seq<(string, Value)>)
    requires DistinctKeys(rels)
    ensures NormalizeFields(rels, hash).Success? <==> AllAccepted(rels, hash)
    ensures NormalizeFields(rels, hash).Success? ==>
      forall k :: Lookup(NormalizeFields(rels, hash).value, k) == ExpectedField(rels, hash, k)
    decreases |rels|
  {
    if |rels| == 0 {
      forall k ensures Lookup(hash, k) == ExpectedField(rels, hash, k) {
        assert RelationshipFor(rels, k).None?;
      }
    } else {
      var rel := rels[0];
      var tail := rels[1..];
      assert DistinctKeys(tail) by {
        forall i, j | 0 <= i < j < |tail| ensures tail[i].key != tail[j].key {
          assert tail[i] == rels[i + 1] && tail[j] == rels[j + 1];
        }
      }
      var step := NormalizeField(rel, hash);
      assert FieldAccepted(rel, Lookup(hash, rel.key)) <==> step.Success?;
      if step.Failure? {
        assert !AllAccepted(rels, hash) by { assert !FieldAccepted(rels[0], Lookup(hash, rels[0].key)); }
      } else {
        var h := step.value;
        NormalizeFieldsSpec(tail, h);
        assert forall i :: 0 <= i < |tail| ==> tail[i].key != rel.key by {
          forall i | 0 <= i < |tail| ensures tail[i].key != rel.key {
            assert tail[i] == rels[i + 1];
          }
        }
        assert AllAccepted(tail, h) <==> AllAccepted(rels, hash) by {
          forall i | 0 <= i < |tail|
            ensures Lookup(h, tail[i].key) == Lookup(hash, tail[i].key)
          {
            assert tail[i].key != rel.key;
          }
          if AllAccepted(tail, h) {
            forall i | 0 <= i < |rels| ensures FieldAccepted(rels[i], Lookup(hash, rels[i].key)) {
              if i > 0 { assert rels[i] == tail[i - 1]; }
            }
          }
          if AllAccepted(rels, hash) {
            forall i | 0 <= i < |tail| ensures FieldAccepted(tail[i], Lookup(h, tail[i].key)) {
              assert tail[i] == rels[i + 1];
            }
          }
        }
        if NormalizeFields(rels, hash).Success? {
          var r := NormalizeFields(rels, hash).value;
          assert r == NormalizeFields(tail, h).value;
          forall k ensures Lookup(r, k) == ExpectedField(rels, hash, k) {
            assert Lookup(r, k) == ExpectedField(tail, h, k);
            if k == rel.key {
              assert RelationshipFor(tail, k).None?;
              assert RelationshipFor(rels, k) == Some(rel);
            } else {
              assert RelationshipFor(rels, k) == RelationshipFor(tail, k);
              assert Lookup(h, k) == Lookup(hash, k);
            }
          }
        }
      }
    }
  }

  /** `normalize` on an object payload succeeds exactly when every declared
      field is acceptable, and then every field is as `ExpectedField` says. */
  lemma NormalizeObject(rels: Relationships, hash: seq<(string, Value)>)
    requires DistinctKeys(rels)
    ensures Normalize(rels, Obj(hash)).Success? <==> AllAccepted(rels, hash)
    ensures Normalize(rels, Obj(hash)).Success? ==>
      forall k :: FieldOf(Normalize(rels, Obj(hash)).value, k) == ExpectedField(rels, hash, k)
  {
    NormalizeFieldsSpec(rels, hash);
  }

  /** A hasMany field holding an array always makes `normalize` throw. */
  lemma ArrayHasManyThrows(rels: Relationships, hash: seq<(string, Value)>, i: nat)
    requires DistinctKeys(rels)
    requires i < |rels| && rels[i].kind == HasMany
    requires Lookup(hash, rels[i].key).Some? && Lookup(hash, rels[i].key).value.Arr?
    ensures Normalize(rels, Obj(hash)).Failure?
  {
    NormalizeFieldsSpec(rels, hash);
    assert !FieldAccepted(rels[i], Lookup(hash, rels[i].key));
  }

  // ------------------------------------------------------------ extractSingle

  /** `store.pushMany(type, records)`. */
  datatype PushMany = PushMany(typeKey: string, records: seq<Value>)

  /** The outcome of extracting: the payload or the error thrown, together with
      the `pushMany` calls made before it returned or threw. */
  datatype Extraction<+T> = Extraction(outcome: Result<T, Error>, pushes: seq<PushMany>)

  /** The entries `for (k in v)` enumerates, provided `Ember.keys(v)` does not
      throw afterwards: an object's entries, or an array's indexed elements. */
  function EmbeddedEntries(v: Value): (r: Result<seq<(string, Value)>, Error>)
    ensures v.Obj? ==> r == Success(v.fields)
    ensures v.Arr? ==> r.Success? && |r.value| == |v.items|
    ensures v.Arr? ==> forall i :: 0 <= i < |v.items| ==> r.value[i] == (IndexKey(i), v.items[i])
    ensures r.Success? <==> v.Obj? || v.Arr?
  {
    match v
    case Obj(fields) => Success(fields)
    case Arr(items) => Success(seq(|items|, i requires 0 <= i < |items| => (IndexKey(i), items[i])))
    case _ => Failure(KeysOfNonObject)
  }

  /** Whether `extractSingle` expands this relationship: it is embedded and its
      field is neither `undefined` nor null (the kind is not checked). */
  predicate Expands(rel: Relationship, field: Option<Value>) {
    rel.embedded && field.Some? && !field.value.Null?
  }

  /** The embedded pass of `extractSingle` over a normalized object. */
  function ExtractEmbedded(rels: Relationships, fields: seq<(string, Value)>): (r: Extraction<seq<(string, Value)>>)
    ensures r.outcome.Success? ==> Keys(r.outcome.value) == Keys(fields)
    decreases |rels|
  {
    if |rels| == 0 then Extraction(Success(fields), [])
    else
      var rel := rels[0];
      var field := Lookup(fields, rel.key);
      if !Expands(rel, field) then ExtractEmbedded(rels[1..], fields)
      else match EmbeddedEntries(field.value)
        case Failure(e) => Extraction(Failure(e), [])
        case Success(entries) =>
          var push := PushMany(rel.target, StampAll(entries));
          SetFieldKeys(fields, rel.key, KeyList(entries));
          var rest := ExtractEmbedded(rels[1..], SetField(fields, rel.key, KeyList(entries)));
          Extraction(rest.outcome, [push] + rest.pushes)
  }

  /** `extractSingle(store, type, payload)`. */
  function ExtractSingle(rels: Relationships, payload: Value): (r: Extraction<Value>)
    ensures r.outcome.Success? && payload.Obj? ==>
      r.outcome.value.Obj? && Keys(r.outcome.value.fields) == Keys(payload.fields)
    ensures Normalize(rels, payload).Failure? ==> r == Extraction(Failure(Normalize(rels, payload).error), [])
    ensures payload.Null? ==> r.pushes == [] && (r.outcome.Failure? <==> |rels| > 0)
    ensures !payload.Obj? && !payload.Null? ==> r == Extraction(Success(payload), [])
  {
    match Normalize(rels, payload)
    case Failure(e) => Extraction(Failure(e), [])
    case Success(n) =>
      if n.Obj? then
        var x := ExtractEmbedded(rels, n.fields);
        match x.outcome
        case Success(f) => Extraction(Success(Obj(f)), x.pushes)
        case Failure(e) => Extraction(Failure(e), x.pushes)
      else if n.Null? && |rels| > 0 then Extraction(Failure(PropertyOfNull), [])
      else Extraction(Success(n), [])
  }

  /** An embedded object field: on success its entries are pushed, in key
      order and each stamped with its key, as records of the related type, and
      the field becomes the key list. */
  lemma ExtractEmbeddedSpec(rels: Relationships, fields: seq<(string, Value)>, i: nat)
    requires DistinctKeys(rels)
    requires i < |rels| && rels[i].embedded
    requires Lookup(fields, rels[i].key).Some? && Lookup(fields, rels[i].key).value.Obj?
    ensures var m := Lookup(fields, rels[i].key).value.fields;
      var r := ExtractEmbedded(rels, fields);
      r.outcome.Success? ==>
        Lookup(r.outcome.value, rels[i].key) == Some(KeyList(m)) &&
        PushMany(rels[i].target, StampAll(m)) in r.pushes
    ensures ExtractEmbedded(rels, fields).outcome.Success? <==> AllExpandable(rels, fields)
  {
    ExtractEmbeddedComplete(rels, fields);
    RelationshipForDistinct(rels, i);
    if AllExpandable(rels, fields) {
      ExpectedPushesContain(rels, fields, i);
    }
  }

  /** When nothing throws, every expanding relationship's push is made. */
  lemma {:induction false} ExpectedPushesContain(rels: Relationships, fields: seq<(string, Value)>, i: nat)
    requires i < |rels| && Expands(rels[i], Lookup(fields, rels[i].key)) && AllExpandable(rels, fields)
    ensures PushMany(rels[i].target, StampAll(EmbeddedEntries(Lookup(fields, rels[i].key).value).value))
            in ExpectedPushes(rels, fields)
    decreases |rels|
  {
    var tail := rels[1..];
    if i > 0 {
      assert tail[i - 1] == rels[i];
      assert AllExpandable(tail, fields) by {
        forall j | 0 <= j < |tail| && Expands(tail[j], Lookup(fields, tail[j].key))
          ensures Lookup(fields, tail[j].key).value.Obj? || Lookup(fields, tail[j].key).value.Arr?
        {
          assert tail[j] == rels[j + 1];
        }
      }
      ExpectedPushesContain(tail, fields, i - 1);
      assert AllExpandable(rels, fields) && 0 < |rels|;
      var field := Lookup(fields, rels[0].key);
      assert Expands(rels[0], field) ==> field.value.Obj? || field.value.Arr?;
    }
  }

  // ----------------------------------------- extractSingle, all inputs at once

  /** Relationships of one model have distinct keys, so each is the one found
      under its own key. */
  lemma RelationshipForDistinct(rels: Relationships, i: nat)
    requires DistinctKeys(rels) && i < |rels|
    ensures RelationshipFor(rels, rels[i].key) == Some(rels[i])
  {
    var f := RelationshipFor(rels, rels[i].key);
    var j :| 0 <= j < |rels| && rels[j] == f.value;
    assert j == i;
  }

  /** Every field the embedded pass expands can be enumerated: it is an object
      or an array. */
  predicate AllExpandable(rels: Relationships, fields: seq<(string, Value)>) {
    forall i :: 0 <= i < |rels| && Expands(rels[i], Lookup(fields, rels[i].key)) ==>
      Lookup(fields, rels[i].key).value.Obj? || Lookup(fields, rels[i].key).value.Arr?
  }

  /** Reference for the `pushMany` calls: one per expanding relationship, in
      declaration order, of the field's entries each stamped with its key, all
      read from the fields as they were before the pass; a field that cannot be
      enumerated ends the list. */
  function ExpectedPushes(rels: Relationships, fields: seq<(string, Value)>): seq<PushMany>
    decreases |rels|
  {
    if |rels| == 0 then []
    else
      var field := Lookup(fields, rels[0].key);
      if !Expands(rels[0], field) then ExpectedPushes(rels[1..], fields)
      else if !field.value.Obj? && !field.value.Arr? then []
      else [PushMany(rels[0].target, StampAll(EmbeddedEntries(field.value).value))]
           + ExpectedPushes(rels[1..], fields)
  }

  /** Reference for a field after the embedded pass: an expanded object or
      array becomes the list of its keys; every other field is unchanged. */
  function ExtractedField(rels: Relationships, fields: seq<(string, Value)>, key: string): Option<Value> {
    var original := Lookup(fields, key);
    match RelationshipFor(rels, key)
    case None => original
    case Some(rel) =>
      if Expands(rel, original) && (original.value.Obj? || original.value.Arr?)
      then Some(KeyList(EmbeddedEntries(original.value).value))
      else original
  }

  /** Two field lists that agree on every embedded relationship's key. */
  predicate AgreeOnEmbedded(rels: Relationships, a: seq<(string, Value)>, b: seq<(string, Value)>) {
    forall i :: 0 <= i < |rels| && rels[i].embedded ==> Lookup(a, rels[i].key) == Lookup(b, rels[i].key)
  }

  /** The embedded pass only looks at embedded relationships' fields. */
  lemma {:induction false} ExpansionFrame(rels: Relationships, a: seq<(string, Value)>, b: seq<(string, Value)>)
    requires AgreeOnEmbedded(rels, a, b)
    ensures AllExpandable(rels, a) <==> AllExpandable(rels, b)
    ensures ExpectedPushes(rels, a) == ExpectedPushes(rels, b)
    decreases |rels|
  {
    if |rels| > 0 {
      assert AgreeOnEmbedded(rels[1..], a, b) by {
        forall i | 0 <= i < |rels[1..]| && rels[1..][i].embedded
          ensures Lookup(a, rels[1..][i].key) == Lookup(b, rels[1..][i].key)
        {
          assert rels[1..][i] == rels[i + 1];
        }
      }
      ExpansionFrame(rels[1..], a, b);
      assert rels[0].embedded ==> Lookup(a, rels[0].key) == Lookup(b, rels[0].key);
    }
  }

  /** The embedded pass of `extractSingle`, for any fields: it succeeds exactly
      when every expanded field is an object or an array; it pushes exactly
      `ExpectedPushes`, also when it throws; on success every field is as
      `ExtractedField` says. */
  lemma {:induction false} ExtractEmbeddedComplete(rels: Relationships, fields: seq<(string, Value)>)
    requires DistinctKeys(rels)
    ensures ExtractEmbedded(rels, fields).outcome.Success? <==> AllExpandable(rels, fields)
    ensures ExtractEmbedded(rels, fields).pushes == ExpectedPushes(rels, fields)
    ensures ExtractEmbedded(rels, fields).outcome.Success? ==>
      forall k :: Lookup(ExtractEmbedded(rels, fields).outcome.value, k) == ExtractedField(rels, fields, k)
    decreases |rels|
  {
    var r := ExtractEmbedded(rels, fields);
    if |rels| == 0 {
      forall k ensures Lookup(fields, k) == ExtractedField(rels, fields, k) {
        assert RelationshipFor(rels, k).None?;
      }
    } else {
      var rel := rels[0];
      var tail := rels[1..];
      var field := Lookup(fields, rel.key);
      assert DistinctKeys(tail) by {
        forall a, b | 0 <= a < b < |tail| ensures tail[a].key != tail[b].key {
          assert tail[a] == rels[a + 1] && tail[b] == rels[b + 1];
        }
      }
      assert forall i :: 0 <= i < |tail| ==> tail[i] == rels[i + 1];
      assert forall i :: 0 <= i < |tail| ==> tail[i].key != rel.key;
      if !Expands(rel, field) || field.value.Obj? || field.value.Arr? {
        var f' := if Expands(rel, field)
                  then SetField(fields, rel.key, KeyList(EmbeddedEntries(field.value).value))
                  else fields;
        assert r.outcome == ExtractEmbedded(tail, f').outcome;
        ExtractEmbeddedComplete(tail, f');
        forall i | 0 <= i < |tail| ensures Lookup(f', tail[i].key) == Lookup(fields, tail[i].key) {
          assert tail[i].key != rel.key;
        }
        ExpansionFrame(tail, f', fields);
        assert AllExpandable(rels, fields) <==> AllExpandable(tail, fields) by {
          if AllExpandable(tail, fields) {
            forall i | 0 <= i < |rels| && Expands(rels[i], Lookup(fields, rels[i].key))
              ensures Lookup(fields, rels[i].key).value.Obj? || Lookup(fields, rels[i].key).value.Arr?
            {
              if i > 0 { assert rels[i] == tail[i - 1]; }
            }
          }
        }
        if r.outcome.Success? {
          forall k ensures Lookup(r.outcome.value, k) == ExtractedField(rels, fields, k) {
            assert Lookup(r.outcome.value, k) == ExtractedField(tail, f', k);
            if k == rel.key {
              assert RelationshipFor(tail, k).None?;
              assert RelationshipFor(rels, k) == Some(rel);
            } else {
              assert RelationshipFor(rels, k) == RelationshipFor(tail, k);
            }
          }
        }
      } else {
        assert !AllExpandable(rels, fields) by {
          assert Expands(rels[0], Lookup(fields, rels[0].key));
        }
      }
    }
  }

  /** The fields `extractSingle` hands back, read from the payload: a
      non-embedded hasMany object that is not array-like and an expanded embedded object or array
      become the list of their keys; every other field is unchanged. */
  function SingleField(rels: Relationships, hash: seq<(string, Value)>, key: string): Option<Value> {
    var original := Lookup(hash, key);
    match RelationshipFor(rels, key)
    case None => original
    case Some(rel) =>
      if rel.kind == HasMany && !rel.embedded && original.Some? && original.value.Obj?
         && !IsEmberArray(original.value)
      then Some(KeyList(original.value.fields))
      else if Expands(rel, original) && (original.value.Obj? || original.value.Arr?)
      then Some(KeyList(EmbeddedEntries(original.value).value))
      else original
  }

  /** `extractSingle` on any object payload: it succeeds exactly when
      `normalize` accepts every field and every expanded field can be
      enumerated; it pushes `ExpectedPushes` of the payload once `normalize`
      has succeeded, and nothing otherwise; on success every field is as
      `SingleField` says. */
  lemma ExtractSingleComplete(rels: Relationships, hash: seq<(string, Value)>)
    requires DistinctKeys(rels)
    ensures ExtractSingle(rels, Obj(hash)).outcome.Success? <==> AllAccepted(rels, hash) && AllExpandable(rels, hash)
    ensures ExtractSingle(rels, Obj(hash)).pushes ==
            if AllAccepted(rels, hash) then ExpectedPushes(rels, hash) else []
    ensures ExtractSingle(rels, Obj(hash)).outcome.Success? ==>
      forall k :: FieldOf(ExtractSingle(rels, Obj(hash)).outcome.value, k) == SingleField(rels, hash, k)
  {
    NormalizeFieldsSpec(rels, hash);
    if AllAccepted(rels, hash) {
      var n := NormalizeFields(rels, hash).value;
      forall i | 0 <= i < |rels| && rels[i].embedded
        ensures Lookup(n, rels[i].key) == Lookup(hash, rels[i].key)
      {
        RelationshipForDistinct(rels, i);
      }
      ExpansionFrame(rels, n, hash);
      ExtractEmbeddedComplete(rels, n);
      var r := ExtractSingle(rels, Obj(hash));
      if r.outcome.Success? {
        forall k ensures FieldOf(r.outcome.value, k) == SingleField(rels, hash, k) {
          assert Lookup(n, k) == ExpectedField(rels, hash, k);
        }
      }
    }
  }

  /** Every pushed embedded record that is an object carries its map key as `id`. */
  lemma StampedRecordsCarryTheirKeys(entries: seq<(string, Value)>, i: nat)
    requires i < |entries| && entries[i].1.Obj?
    ensures StampAll(entries)[i].Obj?
    ensures Lookup(StampAll(entries)[i].fields, "id") == Some(Str(entries[i].0))
  {
  }

  /** `extractSingle` on an object payload with an embedded hasMany map:
      `normalize` leaves the map alone, then its entries are pushed as stamped
      related records and the field becomes the key list. */
  lemma ExtractSingleEmbedded(rels: Relationships, hash: seq<(string, Value)>, i: nat)
    requires DistinctKeys(rels)
    requires i < |rels| && rels[i].kind == HasMany && rels[i].embedded
    requires Lookup(hash, rels[i].key).Some? && Lookup(hash, rels[i].key).value.Obj?
    ensures var m := Lookup(hash, rels[i].key).value.fields;
      var r := ExtractSingle(rels, Obj(hash));
      r.outcome.Success? ==>
        FieldOf(r.outcome.value, rels[i].key) == Some(KeyList(m)) &&
        PushMany(rels[i].target, StampAll(m)) in r.pushes
    ensures ExtractSingle(rels, Obj(hash)).outcome.Success? <==> AllAccepted(rels, hash) && AllExpandable(rels, hash)
  {
    ExtractSingleComplete(rels, hash);
    NormalizeFieldsSpec(rels, hash);
    var r := ExtractSingle(rels, Obj(hash));
    if r.outcome.Success? {
      var n := NormalizeFields(rels, hash).value;
      assert RelationshipFor(rels, rels[i].key) == Some(rels[i]) by {
        var f := RelationshipFor(rels, rels[i].key);
        assert f.Some?;
        var j :| 0 <= j < |rels| && rels[j] == f.value;
        assert j == i;
      }
      assert Lookup(n, rels[i].key) == Lookup(hash, rels[i].key);
      ExtractEmbeddedSpec(rels, n, i);
    }
  }

  // ------------------------------------------------------------- extractArray

  /** The `pushMany` calls of `extractSingle` on each item, in item order. */
  function ConcatPushes(rels: Relationships, payloads: seq<Value>): seq<PushMany>
    decreases |payloads|
  {
    if |payloads| == 0 then [] else ExtractSingle(rels, payloads[0]).pushes + ConcatPushes(rels, payloads[1..])
  }

  /** Item `j` is the first one whose extraction throws. */
  predicate FirstThrow(rels: Relationships, payloads: seq<Value>, j: nat) {
    && j < |payloads| && ExtractSingle(rels, payloads[j]).outcome.Failure?
    && forall i :: 0 <= i < j ==> ExtractSingle(rels, payloads[i]).outcome.Success?
  }

  /** When nothing throws, `extractArray` makes every item's pushes, in item order. */
  lemma {:induction false} ExtractArrayPushes(rels: Relationships, payloads: seq<Value>)
    ensures ExtractArray(rels, payloads).outcome.Success? ==>
      ExtractArray(rels, payloads).pushes == ConcatPushes(rels, payloads)
    decreases |payloads|
  {
    if |payloads| > 0 && ExtractSingle(rels, payloads[0]).outcome.Success? {
      ExtractArrayPushes(rels, payloads[1..]);
    }
  }

  /** When an item throws, `extractArray` makes the pushes of the items up to
      and including the first that throws, and rethrows its error. */
  lemma {:induction false} ExtractArrayThrowPushes(rels: Relationships, payloads: seq<Value>)
    ensures var r := ExtractArray(rels, payloads);
      r.outcome.Failure? ==> exists j: nat :: (FirstThrow(rels, payloads, j) &&
        r.pushes == ConcatPushes(rels, payloads[..j + 1]) &&
        r.outcome.error == ExtractSingle(rels, payloads[j]).outcome.error)
    decreases |payloads|
  {
    if |payloads| > 0 {
      var head := ExtractSingle(rels, payloads[0]);
      var tail := payloads[1..];
      if head.outcome.Failure? {
        assert payloads[..1][0] == payloads[0] && payloads[..1][1..] == [];
        assert ConcatPushes(rels, payloads[..1]) == head.pushes;
        assert FirstThrow(rels, payloads, 0);
      } else {
        ExtractArrayThrowPushes(rels, tail);
        var rest := ExtractArray(rels, tail);
        if rest.outcome.Failure? {
          var j: nat :| FirstThrow(rels, tail, j) && rest.pushes == ConcatPushes(rels, tail[..j + 1]) &&
                        rest.outcome.error == ExtractSingle(rels, tail[j]).outcome.error;
          ThrowShifts(rels, payloads, j);
        }
      }
    }
  }

  /** The first throw of the tail, moved one item along. */
  lemma ThrowShifts(rels: Relationships, payloads: seq<Value>, j: nat)
    requires |payloads| > 0 && ExtractSingle(rels, payloads[0]).outcome.Success?
    requires FirstThrow(rels, payloads[1..], j)
    ensures FirstThrow(rels, payloads, j + 1)
    ensures ConcatPushes(rels, payloads[..j + 2]) ==
            ExtractSingle(rels, payloads[0]).pushes + ConcatPushes(rels, payloads[1..][..j + 1])
  {
    assert payloads[..j + 2][0] == payloads[0] && payloads[..j + 2][1..] == payloads[1..][..j + 1];
    forall i | 0 <= i < j + 1 ensures ExtractSingle(rels, payloads[i]).outcome.Success? {
      if i > 0 { assert payloads[i] == payloads[1..][i - 1]; }
    }
  }

  /** `extractArray`: `extractSingle` on every item in order; the first throw aborts. */
  function ExtractArray(rels: Relationships, payloads: seq<Value>): (r: Extraction<seq<Value>>)
    ensures r.outcome.Success? ==> |r.outcome.value| == |payloads|
    ensures r.outcome.Success? ==>
      forall i :: 0 <= i < |payloads| ==> ExtractSingle(rels, payloads[i]).outcome == Success(r.outcome.value[i])
    ensures r.outcome.Success? <==>
            forall i :: 0 <= i < |payloads| ==> ExtractSingle(rels, payloads[i]).outcome.Success?
    decreases |payloads|
  {
    if |payloads| == 0 then Extraction(Success([]), [])
    else
      var head := ExtractSingle(rels, payloads[0]);
      match head.outcome
      case Failure(e) => Extraction(Failure(e), head.pushes)
      case Success(v) =>
        var rest := ExtractArray(rels, payloads[1..]);
        var pushes := head.pushes + rest.pushes;
        match rest.outcome
        case Failure(e) => Extraction(Failure(e), pushes)
        case Success(vs) => Extraction(Success([v] + vs), pushes)
  }
}

=== FILE: writes.dfy ===
/** The write side of `DS.FirebaseAdapter` (src/data.js:277-402): hasMany
    relationships are written id by id below the record, then the record's own
    fields are merged in at its location. Firebase writes are recorded as
    commands; a transport function says what each write's completion callback
    reports. */
module Writes {
  import opened Basics
  import opened Json
  import opened Outcomes
  import opened Schema
  import opened Paths
  import opened LocalStore
  import opened BatchQueue

  /** `ref.set(value)`, `ref.update(value)` (a merge), `ref.remove()`. */
  datatype WriteCmd =
    | SetValue(path: Path, value: Value)
    | UpdateValue(path: Path, value: Value)
    | RemoveValue(path: Path)

  /** What a write's completion callback receives: `None` when it is called
      without an argument, otherwise the value passed (Firebase passes `null`
      on success). Every write is taken to be acknowledged, so its callback
      always runs. */
  type Transport = WriteCmd -> Option<Value>

  /** The test `if (error)` of a completion callback. */
  predicate Reported(error: Option<Value>) {
    error.Some? && IsTruthy(error.value)
  }

  /** A promise settled by a write's completion callback: rejected with the
      error when it is truthy, resolved otherwise. */
  function SettleWrite(cmd: WriteCmd, transport: Transport): (r: Settlement<()>)
    ensures r.Fulfilled? <==> !Reported(transport(cmd))
    ensures r.Rejected? ==> r.reason == Remote(transport(cmd).value)
    ensures !r.Pending?
  {
    match transport(cmd)
    case Some(e) => if IsTruthy(e) then Rejected(Remote(e)) else Fulfilled(())
    case None => Fulfilled(())
  }

  // ------------------------------------------------ one related id (354-384)

  datatype Decision = MissingEmbeddedRecord | Skip | Write(cmd: WriteCmd)

  /** When a related id is written: an embedded record only if the store holds it
      and it is dirty; a reference if the store does not hold it or it is dirty. */
  predicate WriteWanted(embedded: bool, known: bool, dirty: bool) {
    if embedded then known && dirty else !known || dirty
  }

  /** `_saveHasManyRelationshipRecord` up to the write. `valueToSave` is computed
      before the test, so an embedded id the store does not hold fails on
      `false.serialize`; when no write is wanted nothing happens at all. */
  function Decide(rel: Relationship, parent: Path, id: string, store: Store): (d: Decision)
    ensures d.MissingEmbeddedRecord? <==> rel.embedded && !HasRecord(store, rel.target, id)
    ensures d.Write? <==> WriteWanted(rel.embedded, HasRecord(store, rel.target, id),
                                      HasRecord(store, rel.target, id) && store.records[(rel.target, id)].dirty)
    ensures d.Write? && rel.embedded ==>
      d.cmd == UpdateValue(RelationshipRef(parent, rel.key, id), Obj(store.records[(rel.target, id)].serialized))
    ensures d.Write? && !rel.embedded ==> d.cmd == SetValue(RelationshipRef(parent, rel.key, id), Bool(true))
  {
    var ref := RelationshipRef(parent, rel.key, id);
    var related := Related(store, rel.target, id);
    var isDirty := related.Some? && related.value.dirty;
    if rel.embedded && related.None? then MissingEmbeddedRecord
    else
      var valueToSave := if rel.embedded then Obj(related.value.serialized) else Bool(true);
      if (rel.embedded && related.Some? && isDirty)
         || (!rel.embedded && ((related.Some? && isDirty) || related.None?)) then
        Write(if rel.embedded then UpdateValue(ref, valueToSave) else SetValue(ref, valueToSave))
      else Skip
  }

  /** A save never replaces a location wholesale with data: it sets the marker
      `true` or merges. */
  predicate MarkerOrMerge(w: WriteCmd) {
    w.UpdateValue? || w == SetValue(w.path, Bool(true))
  }

  datatype RelatedSave = RelatedSave(writes: seq<WriteCmd>, outcome: Settlement<()>)

  /** The promise `_saveHasManyRelationshipRecord` returns, with the write it issues. */
  function SaveRelatedRecord(rel: Relationship, parent: Path, id: string, store: Store,
                             transport: Transport): (r: RelatedSave)
    ensures |r.writes| <= 1
    ensures r.writes != [] <==> Decide(rel, parent, id, store).Write?
    ensures r.outcome.Pending? <==> Decide(rel, parent, id, store).Skip?
    ensures r.writes != [] ==> r.outcome == SettleWrite(r.writes[0], transport)
    ensures forall w :: w in r.writes ==> w.path == RelationshipRef(parent, rel.key, id) && MarkerOrMerge(w)
    ensures Decide(rel, parent, id, store).MissingEmbeddedRecord? ==>
      r == RelatedSave([], Rejected(SerializeOfMissingRecord))
  {
    match Decide(rel, parent, id, store)
    case MissingEmbeddedRecord => RelatedSave([], Rejected(SerializeOfMissingRecord))
    case Skip => RelatedSave([], Pending)
    case Write(cmd) => RelatedSave([cmd], SettleWrite(cmd, transport))
  }

  /** Reference for the writes of one relationship: the write each id's
      decision asks for, in id order; an id that needs none contributes
      nothing. */
  function WantedWrites(rel: Relationship, parent: Path, ids: seq<string>, store: Store): seq<WriteCmd>
    decreases |ids|
  {
    if |ids| == 0 then []
    else
      (match Decide(rel, parent, ids[0], store) case Write(cmd) => [cmd] case _ => [])
      + WantedWrites(rel, parent, ids[1..], store)
  }

  /** A write is among the wanted ones exactly when some id's decision is that write. */
  lemma {:induction false} WantedWritesMembers(rel: Relationship, parent: Path, ids: seq<string>, store: Store)
    ensures forall w :: w in WantedWrites(rel, parent, ids, store) <==>
      exists i :: 0 <= i < |ids| && Decide(rel, parent, ids[i], store) == Write(w)
    decreases |ids|
  {
    if |ids| > 0 {
      WantedWritesMembers(rel, parent, ids[1..], store);
      forall w ensures w in WantedWrites(rel, parent, ids, store) <==>
        exists i :: 0 <= i < |ids| && Decide(rel, parent, ids[i], store) == Write(w)
      {
        if exists i :: 0 <= i < |ids| && Decide(rel, parent, ids[i], store) == Write(w) {
          var i :| 0 <= i < |ids| && Decide(rel, parent, ids[i], store) == Write(w);
          if i > 0 { assert ids[1..][i - 1] == ids[i]; }
        }
        if w in WantedWrites(rel, parent, ids[1..], store) {
          var i :| 0 <= i < |ids[1..]| && Decide(rel, parent, ids[1..][i], store) == Write(w);
          assert ids[1..][i] == ids[i + 1];
        }
      }
    }
  }

  /** A related id whose record the store holds and which is clean is never
      written, and its promise never settles. */
  lemma CleanRelatedNeverSettles(rel: Relationship, parent: Path, id: string, store: Store, transport: Transport)
    requires HasRecord(store, rel.target, id) && !store.records[(rel.target, id)].dirty
    ensures SaveRelatedRecord(rel, parent, id, store, transport) == RelatedSave([], Pending)
  {
  }

  // -------------------------------------------- one relationship (329-349)

  /** The reasons of the rejected outcomes, in order (`filterBy('state',
      'rejected').mapBy('reason')`). */
  function Rejections<T>(outcomes: seq<Settlement<T>>): (r: seq<Error>)
    ensures |r| <= |outcomes|
    ensures r == [] <==> forall i :: 0 <= i < |outcomes| ==> !outcomes[i].Rejected?
    ensures forall i :: 0 <= i < |outcomes| && outcomes[i].Rejected? ==> outcomes[i].reason in r
    ensures forall e :: e in r ==> exists i :: 0 <= i < |outcomes| && outcomes[i] == Rejected(e)
    decreases |outcomes|
  {
    if |outcomes| == 0 then []
    else
      var rest := Rejections(outcomes[1..]);
      assert forall i :: 1 <= i < |outcomes| ==> outcomes[i] == outcomes[1..][i - 1];
      if outcomes[0].Rejected? then [outcomes[0].reason] + rest else rest
  }

  /** Rejections keep their order: collecting over a concatenation concatenates. */
  lemma {:induction false} RejectionsAppend<T>(a: seq<Settlement<T>>, b: seq<Settlement<T>>)
    ensures Rejections(a + b) == Rejections(a) + Rejections(b)
    decreases |a|
  {
    if |a| == 0 {
      assert a + b == b;
    } else {
      assert (a + b)[0] == a[0];
      assert (a + b)[1..] == a[1..] + b;
      RejectionsAppend(a[1..], b);
    }
  }

  function CountRejected<T>(outcomes: seq<Settlement<T>>): nat
    decreases |outcomes|
  {
    if |outcomes| == 0 then 0 else (if outcomes[0].Rejected? then 1 else 0) + CountRejected(outcomes[1..])
  }

  /** One reason per rejected outcome. */
  lemma {:induction false} RejectionsCount<T>(outcomes: seq<Settlement<T>>)
    ensures |Rejections(outcomes)| == CountRejected(outcomes)
    decreases |outcomes|
  {
    if |outcomes| > 0 {
      RejectionsCount(outcomes[1..]);
    }
  }

  /** `Ember.RSVP.allSettled(...).then(...)`: pending while any outcome is;
      then the outcomes themselves if none was rejected, else one composite
      error naming the related type and listing every rejected reason. */
  function Aggregate(relatedType: string, outcomes: seq<Settlement<()>>): (r: Settlement<seq<Settlement<()>>>)
    ensures r.Pending? <==> exists i :: 0 <= i < |outcomes| && outcomes[i].Pending?
    ensures r.Fulfilled? <==> forall i :: 0 <= i < |outcomes| ==> outcomes[i].Fulfilled?
    ensures r.Fulfilled? ==> r.value == outcomes
    ensures r.Rejected? ==> r.reason == RelationshipSaveFailed(relatedType, Rejections(outcomes))
    ensures r.Rejected? ==> |Rejections(outcomes)| == CountRejected(outcomes) > 0
  {
    RejectionsCount(outcomes);
    if exists i :: 0 <= i < |outcomes| && outcomes[i].Pending? then Pending
    else
      var errors := Rejections(outcomes);
      if |errors| == 0 then Fulfilled(outcomes)
      else Rejected(RelationshipSaveFailed(relatedType, errors))
  }

  /** Every related id of the list, in order, each written independently. */
  function SaveEach(rel: Relationship, ids: seq<string>, parent: Path, store: Store,
                    transport: Transport): (r: (seq<WriteCmd>, seq<Settlement<()>>))
    ensures |r.1| == |ids|
    ensures forall i :: 0 <= i < |ids| ==> r.1[i] == SaveRelatedRecord(rel, parent, ids[i], store, transport).outcome
    ensures forall w :: w in r.0 ==> exists i :: 0 <= i < |ids| && w.path == RelationshipRef(parent, rel.key, ids[i])
    ensures forall w :: w in r.0 ==> MarkerOrMerge(w)
    ensures r.0 == WantedWrites(rel, parent, ids, store)
    decreases |ids|
  {
    if |ids| == 0 then ([], [])
    else
      var head := SaveRelatedRecord(rel, parent, ids[0], store, transport);
      var rest := SaveEach(rel, ids[1..], parent, store, transport);
      assert forall i :: 1 <= i < |ids| ==> ids[i] == ids[1..][i - 1];
      assert forall w :: w in rest.0 ==>
        exists i :: 1 <= i < |ids| && w.path == RelationshipRef(parent, rel.key, ids[i]) by {
        forall w | w in rest.0
          ensures exists i :: 1 <= i < |ids| && w.path == RelationshipRef(parent, rel.key, ids[i])
        {
          var j :| 0 <= j < |ids| - 1 && w.path == RelationshipRef(parent, rel.key, ids[1..][j]);
          assert ids[j + 1] == ids[1..][j];
        }
      }
      (head.writes + rest.0, [head.outcome] + rest.1)
  }

  /** The writes issued do not depend on how other writes turn out. */
  lemma {:induction false} SaveEachWritesIgnoreTransport(rel: Relationship, ids: seq<string>, parent: Path,
                                                         store: Store, t1: Transport, t2: Transport)
    ensures SaveEach(rel, ids, parent, store, t1).0 == SaveEach(rel, ids, parent, store, t2).0
    ensures forall i :: 0 <= i < |ids| ==>
      SaveEach(rel, ids, parent, store, t1).1[i].Pending? == SaveEach(rel, ids, parent, store, t2).1[i].Pending?
    decreases |ids|
  {
    if |ids| > 0 {
      SaveEachWritesIgnoreTransport(rel, ids[1..], parent, store, t1, t2);
    }
  }

  predicate StringIds(items: seq<Value>) {
    forall j :: 0 <= j < |items| ==> items[j].Str?
  }

  function IdStrings(items: seq<Value>): (r: seq<string>)
    requires StringIds(items)
    ensures |r| == |items| && forall j :: 0 <= j < |items| ==> items[j] == Str(r[j])
  {
    seq(|items|, j requires 0 <= j < |items| => items[j].s)
  }

  datatype HasManySave = HasManySave(writes: seq<WriteCmd>, outcome: Settlement<seq<Settlement<()>>>)

  /** `_saveHasManyRelationship(store, relationship, ids, parentRef)`: throws
      unless the ids are an array; otherwise writes every id and aggregates. */
  function SaveHasMany(rel: Relationship, ids: Value, parent: Path, store: Store,
                       transport: Transport): (r: Result<HasManySave, Error>)
    requires ids.Arr? ==> StringIds(ids.items)
    ensures r.Failure? <==> !ids.Arr?
    ensures r.Failure? ==> r.error == NotAnArray
    ensures r.Success? ==>
      var each := SaveEach(rel, IdStrings(ids.items), parent, store, transport);
      r.value == HasManySave(each.0, Aggregate(rel.target, each.1))
    ensures r.Success? ==> r.value.writes == WantedWrites(rel, parent, IdStrings(ids.items), store)
  {
    if !ids.Arr? then Failure(NotAnArray)
    else
      var each := SaveEach(rel, IdStrings(ids.items), parent, store, transport);
      Success(HasManySave(each.0, Aggregate(rel.target, each.1)))
  }

  /** A relationship save is pending exactly when one of its ids needs no write;
      it fails with every rejected reason when one failed and none is pending. */
  lemma SaveHasManyOutcome(rel: Relationship, ids: seq<string>, parent: Path, store: Store, transport: Transport)
    ensures var o := Aggregate(rel.target, SaveEach(rel, ids, parent, store, transport).1);
      && (o.Pending? <==> exists i :: 0 <= i < |ids| && Decide(rel, parent, ids[i], store).Skip?)
      && (o.Fulfilled? <==> forall i :: 0 <= i < |ids| ==>
            SaveRelatedRecord(rel, parent, ids[i], store, transport).outcome.Fulfilled?)
  {
    var outs := SaveEach(rel, ids, parent, store, transport).1;
    if exists i :: 0 <= i < |ids| && Decide(rel, parent, ids[i], store).Skip? {
      var i :| 0 <= i < |ids| && Decide(rel, parent, ids[i], store).Skip?;
      assert outs[i].Pending?;
    }
  }

  // ------------------------------------------------- updateRecord (277-324)

  /** A serialized field that `updateRecord` detaches: a hasMany key whose
      serialized value is an array. */
  predicate Detached(rels: Relationships, fields: seq<(string, Value)>, key: string) {
    && Lookup(fields, key).Some? && Lookup(fields, key).value.Arr?
    && exists i :: 0 <= i < |rels| && rels[i].kind == HasMany && rels[i].key == key
  }

  /** Serialized hasMany arrays hold ids, which Ember Data keeps as strings. */
  predicate IdListsAreStrings(rels: Relationships, fields: seq<(string, Value)>) {
    forall i :: 0 <= i < |rels| && rels[i].kind == HasMany ==> IdFieldOk(Lookup(fields, rels[i].key))
  }

  predicate IdFieldOk(field: Option<Value>) {
    field.Some? && field.value.Arr? ==> StringIds(field.value.items)
  }

  /** The id-list assumption carries over to the remaining relationships. */
  lemma IdListsAfterStep(rels: Relationships, serialized: seq<(string, Value)>)
    requires |rels| > 0 && IdListsAreStrings(rels, serialized)
    ensures IdListsAreStrings(rels[1..], serialized)
    ensures IdListsAreStrings(rels[1..], RemoveField(serialized, rels[0].key))
  {
    forall i | 0 <= i < |rels[1..]| && rels[1..][i].kind == HasMany
      ensures IdFieldOk(Lookup(serialized, rels[1..][i].key))
    {
      assert rels[1..][i] == rels[i + 1];
    }
  }

  datatype RelationshipRun = RelationshipRun(scalar: seq<(string, Value)>, writes: seq<WriteCmd>,
                                             saves: seq<Settlement<seq<Settlement<()>>>>)

  /** The `eachRelationship` pass of `updateRecord`: each hasMany array is saved
      and deleted from the serialized record. */
  function SaveRelationships(rels: Relationships, serialized: seq<(string, Value)>, recordPath: Path,
                             store: Store, transport: Transport): (r: RelationshipRun)
    requires IdListsAreStrings(rels, serialized)
    ensures forall w :: w in r.writes ==> |w.path| == |recordPath| + 2 && w.path[..|recordPath|] == recordPath
    ensures forall w :: w in r.writes ==> MarkerOrMerge(w)
    decreases |rels|
  {
    if |rels| == 0 then RelationshipRun(serialized, [], [])
    else
      var rel := rels[0];
      var field := Lookup(serialized, rel.key);
      IdListsAfterStep(rels, serialized);
      if rel.kind == HasMany && field.Some? && field.value.Arr? then
        var save := SaveHasMany(rel, field.value, recordPath, store, transport).value;
        var rest := SaveRelationships(rels[1..], RemoveField(serialized, rel.key), recordPath, store, transport);
        RelationshipRun(rest.scalar, save.writes + rest.writes, [save.outcome] + rest.saves)
      else
        SaveRelationships(rels[1..], serialized, recordPath, store, transport)
  }

  /** Reference for the relationship writes of `updateRecord`: for each
      hasMany relationship in declaration order whose serialized value is an
      array, the writes its ids want. */
  function RelationshipWrites(rels: Relationships, serialized: seq<(string, Value)>, recordPath: Path,
                              store: Store): seq<WriteCmd>
    requires IdListsAreStrings(rels, serialized)
    decreases |rels|
  {
    if |rels| == 0 then []
    else
      var field := Lookup(serialized, rels[0].key);
      IdListsAfterStep(rels, serialized);
      (if rels[0].kind == HasMany && field.Some? && field.value.Arr?
       then WantedWrites(rels[0], recordPath, IdStrings(field.value.items), store) else [])
      + RelationshipWrites(rels[1..], serialized, recordPath, store)
  }

  /** The relationship writes only depend on the relationships' own fields. */
  lemma {:induction false} RelationshipWritesFrame(rels: Relationships, a: seq<(string, Value)>,
                                                   b: seq<(string, Value)>, recordPath: Path, store: Store)
    requires IdListsAreStrings(rels, a) && IdListsAreStrings(rels, b)
    requires forall i :: 0 <= i < |rels| ==> Lookup(a, rels[i].key) == Lookup(b, rels[i].key)
    ensures RelationshipWrites(rels, a, recordPath, store) == RelationshipWrites(rels, b, recordPath, store)
    decreases |rels|
  {
    if |rels| > 0 {
      IdListsAfterStep(rels, a);
      IdListsAfterStep(rels, b);
      assert forall i :: 0 <= i < |rels[1..]| ==> rels[1..][i] == rels[i + 1];
      RelationshipWritesFrame(rels[1..], a, b, recordPath, store);
      assert Lookup(a, rels[0].key) == Lookup(b, rels[0].key);
    }
  }

  /** The `eachRelationship` pass issues exactly the reference writes: every
      wanted id write of every detached hasMany array, in declaration order
      and then id order. */
  lemma {:induction false} SaveRelationshipsWrites(rels: Relationships, serialized: seq<(string, Value)>,
                                                   recordPath: Path, store: Store, transport: Transport)
    requires DistinctKeys(rels)
    requires IdListsAreStrings(rels, serialized)
    ensures SaveRelationships(rels, serialized, recordPath, store, transport).writes ==
            RelationshipWrites(rels, serialized, recordPath, store)
    decreases |rels|
  {
    if |rels| > 0 {
      var rel := rels[0];
      var tail := rels[1..];
      var field := Lookup(serialized, rel.key);
      IdListsAfterStep(rels, serialized);
      assert DistinctKeys(tail) by {
        forall a, b | 0 <= a < b < |tail| ensures tail[a].key != tail[b].key {
          assert tail[a] == rels[a + 1] && tail[b] == rels[b + 1];
        }
      }
      if rel.kind == HasMany && field.Some? && field.value.Arr? {
        var remaining := RemoveField(serialized, rel.key);
        SaveRelationshipsWrites(tail, remaining, recordPath, store, transport);
        forall i | 0 <= i < |tail| ensures Lookup(remaining, tail[i].key) == Lookup(serialized, tail[i].key) {
          assert tail[i] == rels[i + 1];
        }
        RelationshipWritesFrame(tail, remaining, serialized, recordPath, store);
      } else {
        SaveRelationshipsWrites(tail, serialized, recordPath, store, transport);
      }
    }
  }

  /** The fields left for the final merge: the serialized record without its
      hasMany arrays, everything else (the `id` absence included) unchanged. */
  lemma {:induction false} SaveRelationshipsScalar(rels: Relationships, serialized: seq<(string, Value)>,
                                                   recordPath: Path, store: Store, transport: Transport)
    requires IdListsAreStrings(rels, serialized)
    ensures var r := SaveRelationships(rels, serialized, recordPath, store, transport);
      forall k :: Lookup(r.scalar, k) == if Detached(rels, serialized, k) then None else Lookup(serialized, k)
    decreases |rels|
  {
    if |rels| > 0 {
      var rel := rels[0];
      var field := Lookup(serialized, rel.key);
      var tail := rels[1..];
      IdListsAfterStep(rels, serialized);
      assert forall i :: 0 <= i < |tail| ==> tail[i] == rels[i + 1];
      if rel.kind == HasMany && field.Some? && field.value.Arr? {
        var remaining := RemoveField(serialized, rel.key);
        SaveRelationshipsScalar(tail, remaining, recordPath, store, transport);
        forall k ensures Detached(rels, serialized, k) <==> k == rel.key || Detached(tail, remaining, k) {
          if k != rel.key && Detached(rels, serialized, k) {
            var i :| 0 <= i < |rels| && rels[i].kind == HasMany && rels[i].key == k;
            assert tail[i - 1].key == k;
          }
        }
      } else {
        SaveRelationshipsScalar(tail, serialized, recordPath, store, transport);
        forall k ensures Detached(rels, serialized, k) <==> Detached(tail, serialized, k) {
          if Detached(rels, serialized, k) {
            var i :| 0 <= i < |rels| && rels[i].kind == HasMany && rels[i].key == k;
            assert i != 0;
            assert tail[i - 1].key == k;
          }
        }
      }
    }
  }

  datatype SaveResult = SaveResult(writes: seq<WriteCmd>, outcome: Settlement<()>)

  /** `updateRecord(store, type, record)`: `id` is `record.id`, `record` holds
      `record.serialize({ includeId: false })`. The merge of the remaining fields
      at the record's location waits on `allSettled`, so it happens once every
      relationship save has settled, whether or not they succeeded. */
  function UpdateRecord(env: Env, rels: Relationships, typeKey: string, id: string, record: LocalRecord,
                        store: Store, transport: Transport): (r: SaveResult)
    requires IdListsAreStrings(rels, record.serialized)
    ensures r.outcome.Pending? <==> r.writes == [] || !r.writes[|r.writes| - 1].UpdateValue? ||
                                     r.writes[|r.writes| - 1].path != Ref(env, typeKey, Some(id))
    ensures !r.outcome.Pending? ==>
      && var commit := r.writes[|r.writes| - 1];
      && commit.value.Obj?
      && (forall k :: Lookup(commit.value.fields, k) ==
                      if Detached(rels, record.serialized, k) then None else Lookup(record.serialized, k))
      && r.outcome == SettleWrite(commit, transport)
    ensures forall j :: 0 <= j < |r.writes| && (r.outcome.Pending? || j < |r.writes| - 1) ==>
      |r.writes[j].path| == |Ref(env, typeKey, Some(id))| + 2 &&
      r.writes[j].path[..|Ref(env, typeKey, Some(id))|] == Ref(env, typeKey, Some(id))
    ensures forall w :: w in r.writes ==> MarkerOrMerge(w)
  {
    var recordRef := Ref(env, typeKey, Some(id));
    var run := SaveRelationships(rels, record.serialized, recordRef, store, transport);
    SaveRelationshipsScalar(rels, record.serialized, recordRef, store, transport);
    if exists i :: 0 <= i < |run.saves| && run.saves[i].Pending? then SaveResult(run.writes, Pending)
    else
      var commit := UpdateValue(recordRef, Obj(run.scalar));
      assert forall w :: w in run.writes ==> w != commit;
      SaveResult(run.writes + [commit], SettleWrite(commit, transport))
  }

  /** `updateRecord` first issues exactly the reference relationship writes,
      then, once nothing hangs, the one merge of the record's own fields. */
  lemma UpdateRecordWrites(env: Env, rels: Relationships, typeKey: string, id: string, record: LocalRecord,
                           store: Store, transport: Transport)
    requires DistinctKeys(rels)
    requires IdListsAreStrings(rels, record.serialized)
    ensures var r := UpdateRecord(env, rels, typeKey, id, record, store, transport);
      var rw := RelationshipWrites(rels, record.serialized, Ref(env, typeKey, Some(id)), store);
      |r.writes| == |rw| + (if r.outcome.Pending? then 0 else 1) && r.writes[..|rw|] == rw
  {
    SaveRelationshipsWrites(rels, record.serialized, Ref(env, typeKey, Some(id)), store, transport);
  }

  /** `createRecord` is `updateRecord`: never a full replace of the record. */
  function CreateRecord(env: Env, rels: Relationships, typeKey: string, id: string, record: LocalRecord,
                        store: Store, transport: Transport): (r: SaveResult)
    requires IdListsAreStrings(rels, record.serialized)
    ensures r == UpdateRecord(env, rels, typeKey, id, record, store, transport)
  {
    UpdateRecord(env, rels, typeKey, id, record, store, transport)
  }

  /** Whether one hasMany relationship of the serialized record has an id that
      needs no write, which leaves its save pending forever. */
  predicate RelationshipHangs(rel: Relationship, fields: seq<(string, Value)>, recordPath: Path, store: Store) {
    && rel.kind == HasMany
    && Lookup(fields, rel.key).Some? && Lookup(fields, rel.key).value.Arr?
    && exists j :: 0 <= j < |Lookup(fields, rel.key).value.items| &&
         Skipped(rel, Lookup(fields, rel.key).value.items[j], recordPath, store)
  }

  predicate Skipped(rel: Relationship, id: Value, recordPath: Path, store: Store) {
    id.Str? && Decide(rel, recordPath, id.s, store).Skip?
  }

  lemma SaveHasManyPendingIffSkip(rel: Relationship, items: seq<Value>, parent: Path, store: Store,
                                  transport: Transport)
    requires StringIds(items)
    ensures SaveHasMany(rel, Arr(items), parent, store, transport).value.outcome.Pending? <==>
      exists j :: 0 <= j < |items| && Skipped(rel, items[j], parent, store)
  {
    var ids := IdStrings(items);
    SaveHasManyOutcome(rel, ids, parent, store, transport);
    if exists j :: 0 <= j < |items| && Skipped(rel, items[j], parent, store) {
      var j :| 0 <= j < |items| && Skipped(rel, items[j], parent, store);
      assert Decide(rel, parent, ids[j], store).Skip?;
    }
    if exists i :: 0 <= i < |ids| && Decide(rel, parent, ids[i], store).Skip? {
      var i :| 0 <= i < |ids| && Decide(rel, parent, ids[i], store).Skip?;
      assert Skipped(rel, items[i], parent, store);
    }
  }

  predicate AnyPending<T>(outcomes: seq<Settlement<T>>) {
    exists k :: 0 <= k < |outcomes| && outcomes[k].Pending?
  }

  lemma AnyPendingCons<T>(o: Settlement<T>, rest: seq<Settlement<T>>)
    ensures AnyPending([o] + rest) <==> o.Pending? || AnyPending(rest)
  {
    if AnyPending(rest) {
      var k :| 0 <= k < |rest| && rest[k].Pending?;
      assert ([o] + rest)[k + 1].Pending?;
    }
    if o.Pending? {
      assert ([o] + rest)[0].Pending?;
    }
    if AnyPending([o] + rest) && !o.Pending? {
      var k :| 0 <= k < |[o] + rest| && ([o] + rest)[k].Pending?;
      assert rest[k - 1].Pending?;
    }
  }

  predicate AnyHangs(rels: Relationships, fields: seq<(string, Value)>, recordPath: Path, store: Store) {
    exists i :: 0 <= i < |rels| && RelationshipHangs(rels[i], fields, recordPath, store)
  }

  lemma AnyHangsCons(rels: Relationships, fields: seq<(string, Value)>, recordPath: Path, store: Store)
    requires |rels| > 0
    ensures AnyHangs(rels, fields, recordPath, store) <==>
      RelationshipHangs(rels[0], fields, recordPath, store) || AnyHangs(rels[1..], fields, recordPath, store)
  {
    if AnyHangs(rels[1..], fields, recordPath, store) {
      var i :| 0 <= i < |rels[1..]| && RelationshipHangs(rels[1..][i], fields, recordPath, store);
      assert rels[i + 1] == rels[1..][i];
    }
    if AnyHangs(rels, fields, recordPath, store) && !RelationshipHangs(rels[0], fields, recordPath, store) {
      var i :| 0 <= i < |rels| && RelationshipHangs(rels[i], fields, recordPath, store);
      assert rels[1..][i - 1] == rels[i];
    }
  }

  /** Removing one relationship's field does not change whether the others hang. */
  lemma AnyHangsAfterRemove(rels: Relationships, fields: seq<(string, Value)>, key: string, recordPath: Path,
                            store: Store)
    requires forall i :: 0 <= i < |rels| ==> rels[i].key != key
    ensures AnyHangs(rels, RemoveField(fields, key), recordPath, store) <==> AnyHangs(rels, fields, recordPath, store)
  {
    var remaining := RemoveField(fields, key);
    forall i | 0 <= i < |rels|
      ensures RelationshipHangs(rels[i], remaining, recordPath, store) <==>
              RelationshipHangs(rels[i], fields, recordPath, store)
    {
      assert Lookup(remaining, rels[i].key) == Lookup(fields, rels[i].key);
    }
  }

  /** Some relationship save stays pending exactly when some hasMany id needs no write. */
  lemma {:induction false} SaveRelationshipsPending(rels: Relationships, serialized: seq<(string, Value)>,
                                                    recordPath: Path, store: Store, transport: Transport)
    requires DistinctKeys(rels)
    requires IdListsAreStrings(rels, serialized)
    ensures AnyPending(SaveRelationships(rels, serialized, recordPath, store, transport).saves) <==>
      AnyHangs(rels, serialized, recordPath, store)
    decreases |rels|
  {
    if |rels| > 0 {
      var rel := rels[0];
      var tail := rels[1..];
      var field := Lookup(serialized, rel.key);
      IdListsAfterStep(rels, serialized);
      AnyHangsCons(rels, serialized, recordPath, store);
      assert DistinctKeys(tail) by {
        forall a, b | 0 <= a < b < |tail| ensures tail[a].key != tail[b].key {
          assert tail[a] == rels[a + 1] && tail[b] == rels[b + 1];
        }
      }
      if rel.kind == HasMany && field.Some? && field.value.Arr? {
        var remaining := RemoveField(serialized, rel.key);
        SaveRelationshipsPending(tail, remaining, recordPath, store, transport);
        assert forall i :: 0 <= i < |tail| ==> tail[i].key != rel.key by {
          forall i | 0 <= i < |tail| ensures tail[i].key != rel.key {
            assert tail[i] == rels[i + 1];
          }
        }
        AnyHangsAfterRemove(tail, serialized, rel.key, recordPath, store);
        var save := SaveHasMany(rel, field.value, recordPath, store, transport).value;
        var rest := SaveRelationships(tail, remaining, recordPath, store, transport);
        AnyPendingCons(save.outcome, rest.saves);
        SaveHasManyPendingIffSkip(rel, field.value.items, recordPath, store, transport);
      } else {
        SaveRelationshipsPending(tail, serialized, recordPath, store, transport);
      }
    }
  }

  /** `updateRecord` never settles (and never merges the record's fields) exactly
      when one of its hasMany ids needs no write; otherwise it settles as the
      final merge does, even when a relationship save was rejected. */
  lemma UpdateRecordHangsIffSkippedId(env: Env, rels: Relationships, typeKey: string, id: string,
                                      record: LocalRecord, store: Store, transport: Transport)
    requires DistinctKeys(rels)
    requires IdListsAreStrings(rels, record.serialized)
    ensures UpdateRecord(env, rels, typeKey, id, record, store, transport).outcome.Pending? <==>
      exists i :: 0 <= i < |rels| && RelationshipHangs(rels[i], record.serialized, Ref(env, typeKey, Some(id)), store)
  {
    var run := SaveRelationships(rels, record.serialized, Ref(env, typeKey, Some(id)), store, transport);
    SaveRelationshipsPending(rels, record.serialized, Ref(env, typeKey, Some(id)), store, transport);
  }

  /** Which of the outcomes are still pending. */
  function PendingFlags<T>(outcomes: seq<Settlement<T>>): (r: seq<bool>)
    ensures |r| == |outcomes| && forall i :: 0 <= i < |outcomes| ==> r[i] == outcomes[i].Pending?
  {
    seq(|outcomes|, i requires 0 <= i < |outcomes| => outcomes[i].Pending?)
  }

  lemma PendingFlagsCons<T>(o: Settlement<T>, rest: seq<Settlement<T>>)
    ensures PendingFlags([o] + rest) == [o.Pending?] + PendingFlags(rest)
  {
  }

  /** One relationship: its writes and whether it stays pending do not depend on the transport. */
  lemma SaveHasManyIgnoresTransport(rel: Relationship, items: seq<Value>, parent: Path, store: Store,
                                    t1: Transport, t2: Transport)
    requires StringIds(items)
    ensures var s1 := SaveHasMany(rel, Arr(items), parent, store, t1).value;
      var s2 := SaveHasMany(rel, Arr(items), parent, store, t2).value;
      s1.writes == s2.writes && s1.outcome.Pending? == s2.outcome.Pending?
  {
    var ids := IdStrings(items);
    SaveEachWritesIgnoreTransport(rel, ids, parent, store, t1, t2);
    var o1 := SaveEach(rel, ids, parent, store, t1).1;
    var o2 := SaveEach(rel, ids, parent, store, t2).1;
    if Aggregate(rel.target, o1).Pending? {
      var i :| 0 <= i < |o1| && o1[i].Pending?;
      assert o2[i].Pending?;
    }
    if Aggregate(rel.target, o2).Pending? {
      var i :| 0 <= i < |o2| && o2[i].Pending?;
      assert o1[i].Pending?;
    }
  }

  /** Which writes are issued does not depend on how any of them turns out. */
  lemma {:induction false} SaveRelationshipsIgnoreTransport(rels: Relationships,
                                                            serialized: seq<(string, Value)>, recordPath: Path,
                                                            store: Store, t1: Transport, t2: Transport)
    requires IdListsAreStrings(rels, serialized)
    ensures var r1 := SaveRelationships(rels, serialized, recordPath, store, t1);
      var r2 := SaveRelationships(rels, serialized, recordPath, store, t2);
      r1.writes == r2.writes && r1.scalar == r2.scalar && PendingFlags(r1.saves) == PendingFlags(r2.saves)
    decreases |rels|
  {
    if |rels| > 0 {
      var rel := rels[0];
      var field := Lookup(serialized, rel.key);
      if rel.kind == HasMany && field.Some? && field.value.Arr? {
        var remaining := RemoveField(serialized, rel.key);
        IdListsAfterStep(rels, serialized);
        SaveHasManyIgnoresTransport(rel, field.value.items, recordPath, store, t1, t2);
        SaveRelationshipsIgnoreTransport(rels[1..], remaining, recordPath, store, t1, t2);
        var s1 := SaveHasMany(rel, field.value, recordPath, store, t1).value;
        var s2 := SaveHasMany(rel, field.value, recordPath, store, t2).value;
        var q1 := SaveRelationships(rels[1..], remaining, recordPath, store, t1);
        var q2 := SaveRelationships(rels[1..], remaining, recordPath, store, t2);
        PendingFlagsCons(s1.outcome, q1.saves);
        PendingFlagsCons(s2.outcome, q2.saves);
      } else {
        IdListsAfterStep(rels, serialized);
        SaveRelationshipsIgnoreTransport(rels[1..], serialized, recordPath, store, t1, t2);
      }
    }
  }

  /** A failing write never suppresses another: `updateRecord` issues the same
      writes whatever the transport reports. */
  lemma UpdateRecordWritesIgnoreTransport(env: Env, rels: Relationships, typeKey: string, id: string,
                                          record: LocalRecord, store: Store, t1: Transport, t2: Transport)
    requires IdListsAreStrings(rels, record.serialized)
    ensures UpdateRecord(env, rels, typeKey, id, record, store, t1).writes ==
            UpdateRecord(env, rels, typeKey, id, record, store, t2).writes
  {
    var path := Ref(env, typeKey, Some(id));
    SaveRelationshipsIgnoreTransport(rels, record.serialized, path, store, t1, t2);
    var r1 := SaveRelationships(rels, record.serialized, path, store, t1);
    var r2 := SaveRelationships(rels, record.serialized, path, store, t2);
    assert |r1.saves| == |PendingFlags(r1.saves)| == |PendingFlags(r2.saves)| == |r2.saves|;
    if exists i :: 0 <= i < |r1.saves| && r1.saves[i].Pending? {
      var i :| 0 <= i < |r1.saves| && r1.saves[i].Pending?;
      assert PendingFlags(r1.saves)[i];
      assert r2.saves[i].Pending?;
    }
    if exists i :: 0 <= i < |r2.saves| && r2.saves[i].Pending? {
      var i :| 0 <= i < |r2.saves| && r2.saves[i].Pending?;
      assert PendingFlags(r2.saves)[i];
      assert r1.saves[i].Pending?;
    }
  }

  // ------------------------------------------------- deleteRecord (389-402)

  /** `deleteRecord(store, type, record)`: removes the record's location and
      queues the settlement of its promise. */
  function DeleteRecord(env: Env, typeKey: string, id: string, promise: nat, transport: Transport,
                        queue: seq<QueueItem>): (r: (WriteCmd, Enqueued))
    ensures r.0 == RemoveValue(Ref(env, typeKey, Some(id)))
    ensures |r.1.queue| == |queue| + 1 && r.1.queue[..|queue|] == queue
    ensures r.1.queue[|queue|] ==
      if Reported(transport(r.0)) then QueueItem(RejectPromise(promise), [transport(r.0).value])
      else QueueItem(ResolvePromise(promise), [])
    ensures r.1.scheduleFlush <==> queue == []
  {
    var cmd := RemoveValue(Ref(env, typeKey, Some(id)));
    match transport(cmd)
    case Some(err) =>
      if IsTruthy(err) then (cmd, Enqueue(queue, QueueItem(RejectPromise(promise), [err])))
      else (cmd, Enqueue(queue, QueueItem(ResolvePromise(promise), [])))
    case None => (cmd, Enqueue(queue, QueueItem(ResolvePromise(promise), [])))
  }
}
